=== FILE: README.md ===
# Bank Statement AI Digitizer — a Dafny model of its core

The Bank Statement AI Digitizer turns photos of bank statements into a table
of transactions. Each photo is sent to a vision model. The JSON reply is
cleaned and decoded, and every record is stamped with the file it came from.
The records of all files are collected into one table, shown with the
known columns first. Saved transactions live in an SQLite store
(`database.py`), which also holds a categories table and a rules table.
The store categorises transactions automatically: keyword rules first,
then the majority category that earlier rows with the same description
received.

This project models both halves as immutable data and pure functions, and
proves what each operation promises:

- `ledger.dfy` (module `Ledger`): the store.
  - Three tables with the schema's uniqueness constraints as an invariant (`Valid`).
  - Row normalisation and the deduplicating `INSERT OR IGNORE` save.
  - Single and batch category updates.
  - Uniqueness-guarded insertion of categories and rules, and their deletion.
  - Seeding of the default categories.
- `categorizer.dfy` (module `Categorizer`): `predict_category` and
  `apply_auto_categorization`.
  - The rule pass and the history vote.
  - The snapshot semantics of the batch pass.
  - A second pass changes nothing.
- `strings.dfy` (module `Strings`): the Python string operations the code
  relies on.
  - `str.strip` and `str.lower`.
  - The `in` substring test.
  - `str.replace(pat, "")`.
- `fences.dfy` (module `Fences`): removal of Markdown code fences from the
  model's reply.
- `ingestion.dfy` (module `Ingestion`): the per-file loop of `app.py`.
  - JSON values and records.
  - Stamping `source_file`.
  - Per-file failure isolation.
  - Accumulation in upload order.
  - The progress bar.
- `columns.dfy` (module `Columns`): the column reordering of the extracted
  table.
- `seqs.dfy` and `optional.dfy`: a sequence filter with its order and
  permutation lemmas, and `Option`, which stands for a Python value that may be `None`.

Conventions of the model:

- **Amounts** are `real`. `pd.to_numeric(..., errors='coerce')` is
  abstracted into a cell that is absent, numeric or not numeric.
- **The DataFrame** handed to `save_transactions` is a set of column labels
  plus rows (`Ledger.Frame`). `df.empty` holds when there are no rows or no
  columns. `row.get(name, default)` falls back to the default only when the
  frame has no such column, so the defaults are decided per frame, not per row.
- **Row identity.** Every transaction and rule carries its `AUTOINCREMENT` id.
  The store keeps the next id to hand out.
- **Categories** are a set of names, because the name is the only unique
  column of that table that is ever read; its `id` primary key is not.
- **Rules** are kept in insertion order, which is the order
  `SELECT keyword, category_name FROM rules` is taken to return.
- **External calls.** The JSON decoder is a parameter (`Decoder`). The outcome
  of image clean-up and of the network call is an input (`Reply`).
- **Stripped description for both passes.** `predict_category` reassigns
  `description` to its stripped form before either pass (database.py:226).
  So the history vote also compares stored descriptions with the stripped
  text, not with the text as passed in.
- **A rule whose category is 'Uncategorized'.** Such a rule makes
  `apply_auto_categorization` write 'Uncategorized' back and count the row
  as updated on every run. `Categorizer.ApplyTwice` still holds, because
  the store does not change.
- **`app.py` never calls `save_transactions`.** The two halves are
  therefore modelled side by side, not composed.

## Model

| member | source | states |
|---|---|---|
| Ledger.Normalize | database.py:87-104 | amount is deposit minus withdrawal, with a missing or non-numeric side, or a column the frame lacks, counting as 0; category is always 'Uncategorized'; date and description are "" when the frame has no such column; source_file is the filename argument only when the frame has no source_file column; a column the frame has gives the row's own value |
| Ledger.Batch | database.py:65-104 | an empty frame (no rows or no columns) gives no batch; otherwise one normalised row per frame row, in frame order |
| Ledger.InsertOrIgnore | database.py:106-110 | a row whose natural key (date, description, amount, source_file) is already stored is ignored with count 0; otherwise it is appended with the next id and count 1; either way the store afterwards holds that key |
| Ledger.InsertAll | database.py:106-112 | a batch insert never modifies or removes an existing row, leaves every table other than transactions alone, ends with exactly the old keys plus the batch's keys, adds only rows with unseen keys, and reports as rowcount the number of rows gained |
| Ledger.InsertAllValid | database.py:18-27 | a batch insert keeps ids increasing and below the next id, and keeps natural keys unique |
| Ledger.InsertAllCount | database.py:106-112 | the rowcount is the number of distinct natural keys of the batch that the store did not already hold, so repeats inside one batch count once |
| Ledger.InsertAllProvenance | database.py:106-110 | every row a batch adds equals, column for column, the first row of the batch with that natural key |
| Ledger.InsertAllKnown | database.py:26 | a batch whose keys are all stored changes nothing and reports 0 |
| Ledger.SaveTransactions | database.py:60-117 | a frame with no rows or no columns returns 0 and leaves the store as it is; otherwise the store stays valid, existing rows are untouched, every normalised row of the batch is present by natural key, and the count is the number of rows gained |
| Ledger.SaveCount | database.py:65-117 | the returned count is the number of distinct normalised keys that were new to the store, and 0 for an empty frame |
| Ledger.SaveAddsNormalizedRows | database.py:87-110 | every added row is uncategorised and equals the normalisation of some row of the frame |
| Ledger.SaveTwice | database.py:26 | saving the same frame a second time returns 0 and leaves the store unchanged |
| Ledger.LatestCategory | database.py:157 | for an id, the category of the last update entry naming it, or none when no entry names it |
| Ledger.UpdateCategory | database.py:137-147 | the row with the given id gets the new category; every other row, every other column and every other table is unchanged; an unknown id changes nothing |
| Ledger.UpdateCategoriesBatch | database.py:149-160 | each row ends with the category of the last entry naming its id, or keeps its own; only the category column changes |
| Ledger.UpdateCategoryIsSingletonBatch | database.py:137-160 | update_category is the batch update with one entry |
| Ledger.OnlyCategoriesChangedValid | database.py:18-27 | changing only categories cannot break the UNIQUE key or the ids |
| Ledger.AddCategory | database.py:172-181 | returns False and changes nothing when the name exists (UNIQUE name); otherwise adds exactly that name and returns True |
| Ledger.DeleteCategory | database.py:183-188 | removes exactly that name and leaves transactions and rules that mention it untouched |
| Ledger.AddRule | database.py:198-207 | returns False and changes nothing when a rule has the same keyword (UNIQUE keyword); otherwise appends one rule with a fresh id, keeps the store valid and returns True; the category name is not checked; only the rules table (and its id counter) change, transactions, categories and the transaction id counter are kept |
| Ledger.DeleteRule | database.py:209-214 | removes exactly the rules with that id, keeps the rest in their order (the rule table filtered), and changes nothing for an unknown id |
| Ledger.InitDb | database.py:47-55 | an empty categories table is seeded with the fifteen defaults, including 'Uncategorized'; a non-empty one is left as is |
| Ledger.InitDbTwice | database.py:47-55 | running init_db a second time changes nothing |
| Ledger.EmptyStoreValid | database.py:10-58 | a fresh store, seeded or not, satisfies the schema's constraints |
| Categorizer.FirstMatchingRule | database.py:232-238 | finds the first rule in table order whose lowercased keyword is a substring of the lowercased description; none only when no rule matches |
| Categorizer.Ballots | database.py:242-249 | the categories of rows with exactly this description that are not 'Uncategorized'; empty exactly when there is no such row; each category occurs as often as the query's COUNT(*) for it |
| Categorizer.Leader | database.py:246-248 | picks a candidate with the highest count |
| Categorizer.HistoryVote | database.py:240-257 | none exactly when no row qualifies; otherwise a category other than 'Uncategorized' that has at least one vote and no fewer votes than any other category |
| Categorizer.PredictCategory | database.py:218-257 | category and source are both set or both None; when rule k is the first match on the stripped description the result is (its category, "Rule: " + keyword); when no rule matches, the history vote on the stripped description decides, tagged "History" |
| Categorizer.DeleteRuleKeepsPrediction | database.py:209-238 | deleting a rule that is not the first match for a description leaves that description's prediction unchanged |
| Categorizer.RuleIgnoresHistory | database.py:235-238 | when any rule matches, the stored transactions play no part in the prediction |
| Categorizer.SameBallotsSamePrediction | database.py:240-257 | only the rules and the ballots for the stripped description influence a prediction |
| Categorizer.PredictStripped | database.py:226 | descriptions that strip to the same text get the same prediction |
| Categorizer.UpdatesFor | database.py:274-278 | every staged update names a row that was selected |
| Categorizer.UpdatesForCount | database.py:274-278 | the number of staged updates equals the number of rows with a non-empty prediction |
| Categorizer.UpdatesForLatest | database.py:274-281 | with ids increasing in row order, as the primary key makes them, the update that reaches a row is exactly the one staged for it |
| Categorizer.ApplyAutoCategorization | database.py:259-285 | only uncategorised rows with a non-empty prediction change; each gets the prediction computed on the store as it was before the call; no other row, column or table changes; the count is the number of such rows |
| Categorizer.BallotsAgree | database.py:242-249 | tables that agree on descriptions, and on categories wherever the description matches, cast the same ballots |
| Categorizer.StagedAlike | database.py:274-277 | uncategorised rows whose descriptions strip to the same text stage the same category |
| Categorizer.PredictionSurvivesPass | database.py:259-285 | a row still uncategorised after a pass gets the same prediction from the new store as from the old one |
| Categorizer.NoRuleLeavesHistory | database.py:240-257 | when no rule matches a row that stays uncategorised, the history ballots for its description are unchanged by the pass |
| Categorizer.ApplyTwice | database.py:259-285 | running the pass a second time right after the first leaves the store exactly as the first left it |
| Categorizer.SecondPassRow | database.py:259-285 | row by row, the second pass writes back what the first pass left |
| Strings.TrimStart | database.py:226 | drops exactly the leading whitespace: the result is a suffix that is empty or starts with a non-space |
| Strings.TrimEnd | database.py:226 | drops exactly the trailing whitespace: the result is a prefix that is empty or ends with a non-space |
| Strings.Strip | database.py:226 | the result is a contiguous window of the input with no leading or trailing whitespace, and only whitespace outside it |
| Strings.StripIdempotent | database.py:226 | stripping twice is stripping once |
| Strings.Lower | database.py:236 | same length; no uppercase ASCII letter remains, and every character that was not one is kept |
| Strings.Occurs | database.py:236 | true exactly when the pattern occurs at some position of the text |
| Strings.RemoveAll | app.py:97 | replacing every occurrence by "" never lengthens the text; the three lemmas below determine the result exactly |
| Strings.RemoveAllCut | app.py:97 | the leftmost occurrence is deleted and the text before it kept: when a, read on into pat, holds no occurrence, replace(a + pat + b) is a + replace(b) |
| Strings.RemoveAllJoin | app.py:97 | a text made of pieces joined by pat at leftmost cuts loses exactly the separators: the result is the pieces run together |
| Strings.RemoveAllPieces | app.py:97 | every text is such a join of leftmost-cut pieces, and replace gives those pieces run together |
| Strings.RemoveAllAbsent | app.py:97 | a text without the pattern is returned unchanged |
| Strings.RemoveAllSkipsPrefix | app.py:97 | a prefix free of the pattern's first character passes through unchanged |
| Fences.StripFences | app.py:95-101 | a reply not starting with a fence is returned unchanged; a reply starting with a fence contains no three backticks in a row afterwards and is no longer than before |
| Fences.StripBareCuts | app.py:98-99 | for a reply opening with a bare fence, cut at its fences leftmost first, the result is exactly the text between the fences |
| Fences.StripJsonCuts | app.py:96-97 | for a reply opening with a json fence, cut first at its json tags and then at the remaining fences, the result is exactly the text between them |
| Fences.StripFencesPieces | app.py:95-99 | every fenced reply has such cuts and strips to the pieces between them, so only tags and fences are removed, wherever they occur |
| Fences.NoFenceSurvives | app.py:97-99 | removing every fence from left to right cannot create a new fence |
| Fences.StripJsonFenced | app.py:96-97 | a backtick-free body wrapped in a json fence comes back unchanged |
| Fences.StripBareFenced | app.py:98-99 | a backtick-free body not starting with "json" wrapped in a bare fence comes back unchanged |
| Ingestion.Lookup | app.py:129 | finds a member with the key exactly when one exists |
| Ingestion.Put | app.py:129 | an existing key keeps its place, a new key is appended, and no other member moves |
| Ingestion.PutLookup | app.py:129 | after assignment the key maps to the new value and every other key to its old value |
| Ingestion.Stamp | app.py:125-130 | a list of objects yields all of them, each with source_file set to the file name and all other fields kept; a list with any non-object yields nothing at all; an empty object or string yields no records; any other value fails |
| Ingestion.ProcessFile | app.py:117-136 | a raising clean-up or extraction is reported with its message; undecodable text is reported together with the cleaned text; decoded JSON that is not a list of records is reported as such; an accepted file's records are exactly its decoded list with source_file stamped, so all carry its name; acceptance exactly when the text decodes and stamping succeeds |
| Ingestion.ConcatUploads | app.py:114-141 | processing two batches in turn gives the same records and failures as processing them together |
| Ingestion.RejectedAddsNothing | app.py:117-136 | a failing file adds no records and exactly one failure, and the files around it are unaffected |
| Ingestion.Provenance | app.py:128-130 | every collected record belongs to an accepted file, and its source_file names that file |
| Ingestion.FailuresNamed | app.py:131-136 | every reported failure names an uploaded file that was rejected with that failure |
| Ingestion.FractionIncreases | app.py:139 | later files give a larger progress value |
| Ingestion.FractionBounds | app.py:139 | every progress value lies in (0, 1], and the last file's is 1 |
| Ingestion.ProgressRises | app.py:138-139 | after all files the bar has shown one value per file, strictly rising and ending at 1 |
| Ingestion.Ingest | app.py:109-141 | the loop collects exactly the reference records and failures in upload order; after file i the bar shows (i+1)/n, and the values rise strictly to 1 |
| Columns.Present | app.py:149 | exactly the known names that are columns of the table |
| Columns.Remaining | app.py:151 | exactly the table's columns that are not known names |
| Columns.ReorderColumns | app.py:146-152 | the new order has exactly the table's columns |
| Columns.KnownFirst | app.py:147-152 | a position holds a known column exactly when it lies within the leading block of known columns |
| Columns.KnownInOrder | app.py:147-149 | the known columns appear in the fixed order date, description, withdrawal, deposit, balance, source_file |
| Columns.OthersInOrder | app.py:150-152 | the other columns keep the table's order |
| Columns.ReorderPermutes | app.py:147-152 | with repetition-free column names the new order is a permutation of the old |
| Columns.ColumnOrder | app.py:146-152 | all of the above for the table's actual known-column list |
| Seqs.FilterOrder | app.py:149-151 | a list comprehension with a condition keeps its elements' relative order |

## Left out

- Image clean-up (`clean_image`: EXIF transpose, adaptive threshold, JPEG and base64 encoding) and the Azure OpenAI call are foreign-library numerics and network I/O. Their outcome is an input: a reply text or a raised exception.
- `json.loads` is a parameter returning a JSON value or a decode error. The decoder itself is not modelled.
- Streamlit widgets, status texts, the error display, the DataFrame construction and CSV export are presentation. The only part kept is the progress value.
- The `pages/` scripts (grid diffing, the UI-only guard against deleting 'Uncategorized', float sums) are UI glue.
- `get_connection`, commits, closing, and the connection left open when an `IntegrityError` is raised are SQLite plumbing.
- `get_all_transactions`, `get_uncategorized`, `get_categories` and `get_rules` are read-only queries with no logic beyond their SQL.
- Floating point: amounts and progress values are exact reals. A numeric cell without a value or with a non-number is NaN after the coercion and counts 0.
- SQLite NULLs: key columns are non-null strings. SQLite treating NULLs as distinct in a UNIQUE key is out of scope.
- Ledger.Normalize: a date, description or source_file cell without a value in a column the frame has is NaN, which SQLite stores as NULL; the model stores the column's default ("" or the file name) there, because key columns are kept as non-null strings.
- Ledger.InsertAll: does not state the order in which new rows are appended; `InsertAllProvenance` says which rows they are, not their order.
- Categorizer.HistoryVote: states only "a category with the maximal count", because SQLite does not define the order of tied groups (the model picks the first maximal one).
- Categorizer.RuleMatches: the fetch order of rules is taken to be insertion order, since the query has no ORDER BY.
- Strings.Lower: lowercases ASCII letters only, not the rest of Unicode.
- Ingestion.Put: does not cover a record with a repeated key, which a decoded JSON object cannot have.
- Columns.ReorderColumns: the permutation property needs distinct column names, which pandas guarantees for a frame built from records.

=== FILE: categorizer.dfy ===
/** The auto-categorisation logic of `database.py`: `predict_category` (a
    keyword-rule pass, then a majority vote over history) and
    `apply_auto_categorization`, which predicts for every uncategorised row
    against one snapshot of the store and writes all predictions in one batch. */
module Categorizer {
  import opened Optional
  import opened Strings
  import opened Ledger
  import Seqs

  /** What `predict_category` returns: `(category, source)`, where `(None, None)`
      means neither pass found anything. */
  datatype Prediction = Prediction(category: Option<string>, source: Option<string>)

  /** The rule test `keyword.lower() in description.lower()`. */
  predicate RuleMatches(rule: Rule, description: string) {
    Occurs(Lower(rule.keyword), Lower(description))
  }

  /** Rule `k` is the first rule in table order whose keyword occurs in `d`. */
  predicate FirstMatch(rules: seq<Rule>, d: string, k: int) {
    && 0 <= k < |rules|
    && RuleMatches(rules[k], d)
    && forall j :: 0 <= j < k ==> !RuleMatches(rules[j], d)
  }

  /** No rule's keyword occurs in `d`. */
  predicate NoRuleMatches(rules: seq<Rule>, d: string) {
    forall k :: 0 <= k < |rules| ==> !RuleMatches(rules[k], d)
  }

  /** There is only one first match. */
  lemma FirstMatchUnique(rules: seq<Rule>, d: string, k: int, k': int)
    requires FirstMatch(rules, d, k) && FirstMatch(rules, d, k')
    ensures k == k'
  {
  }

  /** The position of the first rule, in table order, whose keyword occurs in the description. */
  function FirstMatchingRule(rules: seq<Rule>, description: string): (r: Option<nat>)
    ensures r.Some? ==> FirstMatch(rules, description, r.value)
    ensures r.None? ==> NoRuleMatches(rules, description)
    decreases |rules|
  {
    if |rules| == 0 then None
    else if RuleMatches(rules[0], description) then Some(0)
    else
      match FirstMatchingRule(rules[1..], description)
      case Some(k) =>
        assert forall j :: 1 <= j <= k ==> rules[j] == rules[1..][j - 1];
        Some(k + 1)
      case None =>
        assert forall j :: 1 <= j < |rules| ==> rules[j] == rules[1..][j - 1];
        None
  }

  /** The `COUNT(*)` of rows with this exact description and this category. */
  function Votes(txns: seq<Transaction>, description: string, category: string): nat
    decreases |txns|
  {
    if |txns| == 0 then 0
    else (if txns[0].description == description && txns[0].category == category then 1 else 0)
         + Votes(txns[1..], description, category)
  }

  /** The categories of the rows the history query selects
      (`WHERE description = ? AND category != 'Uncategorized'`), in row order. */
  function Ballots(txns: seq<Transaction>, description: string): (b: seq<string>)
    ensures Uncategorized !in b
    ensures |b| == 0 <==> forall i :: 0 <= i < |txns| ==> !(txns[i].description == description && txns[i].category != Uncategorized)
    ensures forall c :: c != Uncategorized ==> multiset(b)[c] == Votes(txns, description, c)
    decreases |txns|
  {
    if |txns| == 0 then []
    else
      var rest := Ballots(txns[1..], description);
      assert forall i :: 1 <= i < |txns| ==> txns[i] == txns[1..][i - 1];
      if txns[0].description == description && txns[0].category != Uncategorized then
        assert multiset([txns[0].category] + rest) == multiset{txns[0].category} + multiset(rest);
        [txns[0].category] + rest
      else rest
  }

  /** A most frequent entry of `ballots` among `candidates` (the first one on a tie). */
  function Leader(ballots: seq<string>, candidates: seq<string>): (r: string)
    requires |candidates| > 0
    ensures r in candidates
    ensures forall k :: 0 <= k < |candidates| ==> multiset(ballots)[candidates[k]] <= multiset(ballots)[r]
    decreases |candidates|
  {
    if |candidates| == 1 then candidates[0]
    else
      var best := Leader(ballots, candidates[1..]);
      assert forall k :: 1 <= k < |candidates| ==> candidates[k] == candidates[1..][k - 1];
      if multiset(ballots)[candidates[0]] >= multiset(ballots)[best] then candidates[0] else best
  }

  /** Row `t` is selected by the history query for `d`. */
  predicate Qualifies(t: Transaction, d: string) {
    t.description == d && t.category != Uncategorized
  }

  /** Some row of the table is selected by the history query for `d`. */
  predicate HasHistory(txns: seq<Transaction>, d: string) {
    exists i :: 0 <= i < |txns| && Qualifies(txns[i], d)
  }

  /** `c` is a real category with at least as many votes for `d` as any other. */
  ghost predicate MostVoted(txns: seq<Transaction>, d: string, c: string) {
    && c != Uncategorized
    && Votes(txns, d, c) > 0
    && forall c' :: c' != Uncategorized ==> Votes(txns, d, c') <= Votes(txns, d, c)
  }

  /** The history pass: `GROUP BY category ORDER BY cnt DESC LIMIT 1` over the
      rows with exactly this description that are not uncategorised. It finds a
      category exactly when such a row exists, never the sentinel, and always one
      with the highest count. */
  function HistoryVote(txns: seq<Transaction>, description: string): (r: Option<string>)
    ensures r.None? <==> !HasHistory(txns, description)
    ensures r.Some? ==> MostVoted(txns, description, r.value)
  {
    var ballots := Ballots(txns, description);
    if |ballots| == 0 then None
    else
      var winner := Leader(ballots, ballots);
      assert forall c :: c !in ballots ==> multiset(ballots)[c] == 0;
      Some(winner)
  }

  /** `predict_category(description)`. The description is stripped first. The
      first rule in table order whose keyword occurs in it, ignoring case,
      decides, tagged `"Rule: " + keyword`. Only when no rule matches does the
      history vote run over rows with exactly the stripped description, tagged
      `"History"`. */
  function PredictCategory(s: Store, description: string): (p: Prediction)
    ensures p.category.None? <==> p.source.None?
    ensures forall k :: FirstMatch(s.rules, Strip(description), k) ==>
              p == Prediction(Some(s.rules[k].categoryName), Some("Rule: " + s.rules[k].keyword))
    ensures NoRuleMatches(s.rules, Strip(description)) ==>
              && (p.category.Some? <==> HasHistory(s.transactions, Strip(description)))
              && (p.category.Some? ==> p.source == Some("History") && MostVoted(s.transactions, Strip(description), p.category.value))
  {
    var d := Strip(description);
    match FirstMatchingRule(s.rules, d)
    case Some(k) =>
      assert forall k' :: FirstMatch(s.rules, d, k') ==> k' == k by {
        forall k' | FirstMatch(s.rules, d, k') ensures k' == k {
          FirstMatchUnique(s.rules, d, k, k');
        }
      }
      Prediction(Some(s.rules[k].categoryName), Some("Rule: " + s.rules[k].keyword))
    case None =>
      match HistoryVote(s.transactions, d)
      case Some(c) => Prediction(Some(c), Some("History"))
      case None => Prediction(None, None)
  }

  /** When a rule matches, the stored transactions play no part in the prediction. */
  lemma RuleIgnoresHistory(s: Store, description: string, txns: seq<Transaction>)
    requires exists k :: 0 <= k < |s.rules| && RuleMatches(s.rules[k], Strip(description))
    ensures PredictCategory(s.(transactions := txns), description) == PredictCategory(s, description)
  {
  }

  /** Stores with the same rules whose tables cast the same ballots for a
      description predict the same for it. */
  lemma SameBallotsSamePrediction(a: Store, b: Store, description: string)
    requires a.rules == b.rules
    requires Ballots(a.transactions, Strip(description)) == Ballots(b.transactions, Strip(description))
    ensures PredictCategory(a, description) == PredictCategory(b, description)
  {
  }

  /** Predictions only see the stripped description. */
  lemma PredictStripped(s: Store, a: string, b: string)
    requires Strip(a) == Strip(b)
    ensures PredictCategory(s, a) == PredictCategory(s, b)
  {
  }

  /** Dropping rules that do not match leaves no match behind. */
  lemma FilterNoMatch(rules: seq<Rule>, p: Rule -> bool, d: string)
    requires NoRuleMatches(rules, d)
    ensures NoRuleMatches(Seqs.Filter(rules, p), d)
  {
    var kept := Seqs.Filter(rules, p);
    forall k | 0 <= k < |kept| ensures !RuleMatches(kept[k], d) {
      assert kept[k] in rules;
    }
  }

  /** The rule test for a fixed description, as a function of the rule. */
  function MatchesIn(d: string): Rule -> bool {
    (a: Rule) => RuleMatches(a, d)
  }

  /** Dropping rules keeps the first match as long as that rule itself is kept. */
  lemma FilterKeepsFirstMatch(rules: seq<Rule>, p: Rule -> bool, d: string, k: int) returns (k': int)
    requires FirstMatch(rules, d, k) && p(rules[k])
    ensures FirstMatch(Seqs.Filter(rules, p), d, k') && Seqs.Filter(rules, p)[k'] == rules[k]
  {
    k' := Seqs.FilterKeepsFirst(rules, p, MatchesIn(d), k);
  }

  /** Deleting a rule that does not decide a description, by matching it first,
      leaves that description's prediction as it was: the remaining rules keep
      their order, so the same rule matches first, or none does and history
      decides over the same rows. */
  lemma DeleteRuleKeepsPrediction(s: Store, id: nat, description: string)
    requires Valid(s)
    requires forall k :: FirstMatch(s.rules, Strip(description), k) ==> s.rules[k].id != id
    ensures PredictCategory(DeleteRule(s, id), description) == PredictCategory(s, description)
  {
    var r, d := DeleteRule(s, id), Strip(description);
    match FirstMatchingRule(s.rules, d)
    case Some(k) =>
      var k' := FilterKeepsFirstMatch(s.rules, OtherThan(id), d, k);
    case None =>
      FilterNoMatch(s.rules, OtherThan(id), d);
      assert FirstMatchingRule(r.rules, d).None?;
  }

  // ---------------------------------------------------------------------------
  // apply_auto_categorization

  /** The category `apply_auto_categorization` stages for row `t`, predicting
      against store `s`: only uncategorised rows are candidates, and a missing or
      empty prediction (falsy in Python) stages nothing. */
  function Staged(s: Store, t: Transaction): Option<string> {
    if t.category != Uncategorized then None
    else
      match PredictCategory(s, t.description).category
      case Some(c) => if c != "" then Some(c) else None
      case None => None
  }

  /** The `updates` list, built in row order from what `stage` gives each row. */
  function UpdatesFor(rows: seq<Transaction>, stage: Transaction -> Option<string>): (u: seq<CategoryUpdate>)
    ensures forall k :: 0 <= k < |u| ==> exists i :: 0 <= i < |rows| && rows[i].id == u[k].id
    decreases |rows|
  {
    if |rows| == 0 then []
    else
      var rest := UpdatesFor(rows[1..], stage);
      assert forall i :: 1 <= i < |rows| ==> rows[i] == rows[1..][i - 1];
      match stage(rows[0])
      case Some(c) => [CategoryUpdate(rows[0].id, c)] + rest
      case None => rest
  }

  /** One update per row that has something staged. */
  lemma {:induction false} UpdatesForCount(rows: seq<Transaction>, stage: Transaction -> Option<string>, p: Transaction -> bool)
    requires forall t :: p(t) <==> stage(t).Some?
    ensures |UpdatesFor(rows, stage)| == |Seqs.Filter(rows, p)|
    decreases |rows|
  {
    if |rows| > 0 {
      UpdatesForCount(rows[1..], stage, p);
    }
  }

  /** With ids increasing in row order (as the primary key makes them), the update that reaches row `i` is exactly the one staged for it. */
  lemma {:induction false} UpdatesForLatest(rows: seq<Transaction>, stage: Transaction -> Option<string>, i: int)
    requires forall a, b :: 0 <= a < b < |rows| ==> rows[a].id < rows[b].id
    requires 0 <= i < |rows|
    ensures LatestCategory(UpdatesFor(rows, stage), rows[i].id) == stage(rows[i])
    decreases |rows|
  {
    var rest := UpdatesFor(rows[1..], stage);
    var u := UpdatesFor(rows, stage);
    if i == 0 {
      assert LatestCategory(rest, rows[0].id).None? by {
        forall k | 0 <= k < |rest| ensures rest[k].id != rows[0].id {
          var j :| 0 <= j < |rows[1..]| && rows[1..][j].id == rest[k].id;
          assert rows[j + 1].id > rows[0].id;
        }
      }
      match stage(rows[0])
      case Some(c) =>
        assert u == [CategoryUpdate(rows[0].id, c)] + rest;
        assert u[1..] == rest;
      case None =>
        assert u == rest;
    } else {
      UpdatesForLatest(rows[1..], stage, i - 1);
      assert rows[1..][i - 1] == rows[i];
      match stage(rows[0])
      case Some(c) =>
        assert u == [CategoryUpdate(rows[0].id, c)] + rest;
        assert u[1..] == rest;
        assert rows[0].id != rows[i].id;
      case None =>
        assert u == rest;
    }
  }

  /** `apply_auto_categorization()`: every uncategorised row whose prediction
      against the store as it was before the call is a non-empty category gets
      that category; no other row and no other column changes; the count is the
      number of such rows. */
  function ApplyAutoCategorization(s: Store): (r: Saved)
    requires Valid(s)
    ensures Valid(r.store)
    ensures r.store == s.(transactions := r.store.transactions)
    ensures OnlyCategoriesChanged(s.transactions, r.store.transactions)
    ensures forall i :: 0 <= i < |s.transactions| ==>
              r.store.transactions[i].category == Staged(s, s.transactions[i]).OrElse(s.transactions[i].category)
    ensures r.count == |Seqs.Filter(s.transactions, (t: Transaction) => Staged(s, t).Some?)|
  {
    var stage := (t: Transaction) => Staged(s, t);
    var updates := UpdatesFor(s.transactions, stage);
    var after := UpdateCategoriesBatch(s, updates);
    forall i | 0 <= i < |s.transactions|
      ensures LatestCategory(updates, s.transactions[i].id) == Staged(s, s.transactions[i])
    {
      UpdatesForLatest(s.transactions, stage, i);
    }
    UpdatesForCount(s.transactions, stage, (t: Transaction) => Staged(s, t).Some?);
    OnlyCategoriesChangedValid(s, after);
    Saved(after, |updates|)
  }

  /** Two tables that agree on descriptions, and on categories wherever the
      description is `d`, cast the same ballots for `d`. */
  lemma {:induction false} BallotsAgree(a: seq<Transaction>, b: seq<Transaction>, d: string)
    requires |a| == |b|
    requires forall j :: 0 <= j < |a| ==> a[j].description == b[j].description
    requires forall j :: 0 <= j < |a| && a[j].description == d ==> a[j].category == b[j].category
    ensures Ballots(a, d) == Ballots(b, d)
    decreases |a|
  {
    if |a| > 0 {
      BallotsAgree(a[1..], b[1..], d);
    }
  }

  /** `after` is what one auto-categorisation pass makes of `s`. */
  ghost predicate PassOf(s: Store, after: Store) {
    && after == s.(transactions := after.transactions)
    && OnlyCategoriesChanged(s.transactions, after.transactions)
    && forall i :: 0 <= i < |s.transactions| ==>
         after.transactions[i].category == Staged(s, s.transactions[i]).OrElse(s.transactions[i].category)
  }

  /** Rows sharing a stripped description stage the same thing in one pass. */
  lemma StagedAlike(s: Store, t: Transaction, u: Transaction)
    requires t.category == Uncategorized && u.category == Uncategorized
    requires Strip(t.description) == Strip(u.description)
    ensures Staged(s, t) == Staged(s, u)
  {
    PredictStripped(s, t.description, u.description);
  }

  /** A row that stays uncategorised after a pass gets the same prediction from
      the store the pass produced as from the store it started with. */
  lemma PredictionSurvivesPass(s: Store, after: Store, i: int)
    requires PassOf(s, after)
    requires 0 <= i < |s.transactions|
    requires after.transactions[i].category == Uncategorized
    ensures PredictCategory(after, s.transactions[i].description) == PredictCategory(s, s.transactions[i].description)
  {
    var t := s.transactions[i];
    var d := Strip(t.description);
    if exists k :: 0 <= k < |s.rules| && RuleMatches(s.rules[k], d) {
      RuleIgnoresHistory(s, t.description, after.transactions);
    } else {
      NoRuleLeavesHistory(s, after, i);
      SameBallotsSamePrediction(after, s, t.description);
    }
  }

  /** When no rule matches row `i` and it stays uncategorised, the rows with its
      stripped description keep their categories, so they vote as before. */
  lemma NoRuleLeavesHistory(s: Store, after: Store, i: int)
    requires PassOf(s, after)
    requires 0 <= i < |s.transactions|
    requires after.transactions[i].category == Uncategorized
    requires forall k :: 0 <= k < |s.rules| ==> !RuleMatches(s.rules[k], Strip(s.transactions[i].description))
    ensures Ballots(after.transactions, Strip(s.transactions[i].description)) == Ballots(s.transactions, Strip(s.transactions[i].description))
  {
    var t := s.transactions[i];
    var d := Strip(t.description);
    assert t.category == Uncategorized by {
      assert after.transactions[i].category == Staged(s, t).OrElse(t.category);
    }
    // With no rule matching, anything staged would be a history winner, never
    // the sentinel that row `i` still holds: so nothing was staged for it.
    assert Staged(s, t).None?;
    forall j | 0 <= j < |s.transactions|
      ensures after.transactions[j].description == s.transactions[j].description
      ensures s.transactions[j].description == d ==> after.transactions[j].category == s.transactions[j].category
    {
      var u := s.transactions[j];
      assert after.transactions[j].(category := u.category) == u;
      if u.description == d && u.category == Uncategorized {
        StripIdempotent(t.description);
        StagedAlike(s, t, u);
      }
    }
    BallotsAgree(after.transactions, s.transactions, d);
  }

  /** A second pass right after the first changes no row: rows the first pass
      left uncategorised still get no usable prediction, and rows a rule sent to
      the sentinel are sent there again. */
  lemma ApplyTwice(s: Store)
    requires Valid(s)
    ensures var once := ApplyAutoCategorization(s).store;
            ApplyAutoCategorization(once).store == once
  {
    var once := ApplyAutoCategorization(s).store;
    var twice := ApplyAutoCategorization(once).store;
    assert PassOf(s, once);
    assert PassOf(once, twice);
    forall i | 0 <= i < |once.transactions|
      ensures twice.transactions[i] == once.transactions[i]
    {
      SecondPassRow(s, once, twice, i);
    }
  }

  lemma SecondPassRow(s: Store, once: Store, twice: Store, i: int)
    requires PassOf(s, once) && PassOf(once, twice)
    requires 0 <= i < |s.transactions|
    ensures twice.transactions[i] == once.transactions[i]
  {
    var t, t1 := s.transactions[i], once.transactions[i];
    assert twice.transactions[i].(category := t1.category) == t1;
    assert t1.(category := t.category) == t;
    if t1.category == Uncategorized {
      PredictionSurvivesPass(s, once, i);
      assert Staged(once, t1) == Staged(s, t) || Staged(s, t).None?;
    }
  }
}

=== FILE: columns.dfy ===
/** The column order of the extracted table in `app.py`: the known columns
    that are present come first, in a fixed order, followed by every other
    column in the order the table already had. */
module Columns {
  import Seqs

  const KnownColumns: seq<string> := ["date", "description", "withdrawal", "deposit", "balance", "source_file"]

  /** Membership tests used as filter conditions. */
  function In(cols: seq<string>): string -> bool {
    c => c in cols
  }

  function NotIn(cols: seq<string>): string -> bool {
    c => c !in cols
  }

  /** The names of `known` that are columns of the table, in the order of `known`. */
  function Present(known: seq<string>, cols: seq<string>): (r: seq<string>)
    ensures forall c :: c in r <==> c in known && c in cols
  {
    Seqs.Filter(known, In(cols))
  }

  /** The table's other columns, in their current order. */
  function Remaining(known: seq<string>, cols: seq<string>): (r: seq<string>)
    ensures forall c :: c in r <==> c in cols && c !in known
  {
    Seqs.Filter(cols, NotIn(Present(known, cols)))
  }

  /** Put the columns named in `known` first. */
  function ReorderBy(known: seq<string>, cols: seq<string>): (r: seq<string>)
    ensures forall c :: c in r <==> c in cols
  {
    Present(known, cols) + Remaining(known, cols)
  }

  /** The new column order for a table whose columns are `cols`. */
  function ReorderColumns(cols: seq<string>): (r: seq<string>)
    ensures forall c :: c in r <==> c in cols
  {
    ReorderBy(KnownColumns, cols)
  }

  /** Exactly the first `|Present(known, cols)|` columns of the result are known ones. */
  lemma KnownFirst(known: seq<string>, cols: seq<string>)
    ensures forall i :: 0 <= i < |ReorderBy(known, cols)| ==>
      (ReorderBy(known, cols)[i] in known <==> i < |Present(known, cols)|)
  {
    var present, remaining := Present(known, cols), Remaining(known, cols);
    var r := ReorderBy(known, cols);
    var n := |present|;
    forall i | 0 <= i < |r|
      ensures r[i] in known <==> i < n
    {
      if i < n {
        assert r[i] == present[i];
      } else {
        assert r[i] == remaining[i - n];
      }
    }
  }

  /** The known columns keep the order of `known`. */
  lemma KnownInOrder(known: seq<string>, cols: seq<string>)
    ensures forall i, j :: 0 <= i < j < |Present(known, cols)| ==>
      Seqs.Before(known, ReorderBy(known, cols)[i], ReorderBy(known, cols)[j])
  {
    var present := Present(known, cols);
    var r := ReorderBy(known, cols);
    Seqs.FilterOrder(known, In(cols));
    forall i, j | 0 <= i < j < |present|
      ensures Seqs.Before(known, r[i], r[j])
    {
      assert r[i] == present[i] && r[j] == present[j];
    }
  }

  /** The other columns keep the table's order. */
  lemma OthersInOrder(known: seq<string>, cols: seq<string>)
    ensures forall i, j :: |Present(known, cols)| <= i < j < |ReorderBy(known, cols)| ==>
      Seqs.Before(cols, ReorderBy(known, cols)[i], ReorderBy(known, cols)[j])
  {
    var present, remaining := Present(known, cols), Remaining(known, cols);
    var r := ReorderBy(known, cols);
    var n := |present|;
    Seqs.FilterOrder(cols, NotIn(present));
    forall i, j | n <= i < j < |r|
      ensures Seqs.Before(cols, r[i], r[j])
    {
      assert r[i] == remaining[i - n] && r[j] == remaining[j - n];
    }
  }

  /** With repetition-free names on both sides, reordering is a permutation. */
  lemma ReorderPermutes(known: seq<string>, cols: seq<string>)
    requires Seqs.Distinct(known) && Seqs.Distinct(cols)
    ensures Seqs.Distinct(ReorderBy(known, cols))
    ensures multiset(ReorderBy(known, cols)) == multiset(cols)
  {
    var present, remaining := Present(known, cols), Remaining(known, cols);
    var r := ReorderBy(known, cols);
    var n := |present|;
    Seqs.FilterDistinct(known, In(cols));
    Seqs.FilterDistinct(cols, NotIn(present));
    forall i, j | 0 <= i < j < |r|
      ensures r[i] != r[j]
    {
      if j < n {
        assert r[i] == present[i] && r[j] == present[j];
      } else if n <= i {
        assert r[i] == remaining[i - n] && r[j] == remaining[j - n];
      } else {
        assert r[i] == present[i] && r[j] == remaining[j - n];
      }
    }
    Seqs.DistinctSameElementsPermutation(r, cols);
  }

  /** The table's own column order: the known columns that are present come
      first in their fixed order, then all others in their original order, and
      for a table (whose columns never repeat) nothing is lost or duplicated. */
  lemma ColumnOrder(cols: seq<string>)
    ensures forall i :: 0 <= i < |ReorderColumns(cols)| ==>
      (ReorderColumns(cols)[i] in KnownColumns <==> i < |Present(KnownColumns, cols)|)
    ensures forall i, j :: 0 <= i < j < |Present(KnownColumns, cols)| ==>
      Seqs.Before(KnownColumns, ReorderColumns(cols)[i], ReorderColumns(cols)[j])
    ensures forall i, j :: |Present(KnownColumns, cols)| <= i < j < |ReorderColumns(cols)| ==>
      Seqs.Before(cols, ReorderColumns(cols)[i], ReorderColumns(cols)[j])
    ensures Seqs.Distinct(cols) ==> multiset(ReorderColumns(cols)) == multiset(cols)
  {
    KnownFirst(KnownColumns, cols);
    KnownInOrder(KnownColumns, cols);
    OthersInOrder(KnownColumns, cols);
    if Seqs.Distinct(cols) {
      assert Seqs.Distinct(KnownColumns);
      ReorderPermutes(KnownColumns, cols);
    }
  }
}

=== FILE: fences.dfy ===
/** The clean-up at the end of `extract_transactions` in `app.py`: the model's
    reply may be wrapped in a Markdown code fence, which is removed with
    `str.replace` before the text is handed to the JSON decoder. */
module Fences {
  import opened Strings

  const Fence: string := "```"
  const JsonFence: string := "```json"

  /** A reply that does not start with a fence is returned as it is. One that
      starts with a fence loses every fence: afterwards no three backticks in a
      row remain anywhere, not only at the ends. */
  function StripFences(content: string): (r: string)
    ensures !StartsWith(content, Fence) ==> r == content
    ensures StartsWith(content, Fence) ==> !Occurs(Fence, r)
    ensures |r| <= |content|
  {
    if StartsWith(content, JsonFence) then
      NoFenceSurvives(RemoveAll(content, JsonFence));
      RemoveAll(RemoveAll(content, JsonFence), Fence)
    else if StartsWith(content, Fence) then
      NoFenceSurvives(content);
      RemoveAll(content, Fence)
    else
      content
  }

  /** Cut a reply opening with a bare fence at the fences `replace` deletes,
      leftmost first: the stripped reply is exactly the text between them. */
  lemma StripBareCuts(content: string, pieces: seq<string>)
    requires StartsWith(content, Fence) && !StartsWith(content, JsonFence)
    requires LeftmostCuts(pieces, Fence) && Join(pieces, Fence) == content
    ensures StripFences(content) == Concat(pieces)
  {
    RemoveAllJoin(pieces, Fence);
  }

  /** Cut a reply opening with a json fence first at its ```` ```json ```` tags and
      then, in what is left, at its fences: the stripped reply is exactly the
      text that remains between all of them. */
  lemma StripJsonCuts(content: string, tagged: seq<string>, pieces: seq<string>)
    requires StartsWith(content, JsonFence)
    requires LeftmostCuts(tagged, JsonFence) && Join(tagged, JsonFence) == content
    requires LeftmostCuts(pieces, Fence) && Join(pieces, Fence) == Concat(tagged)
    ensures StripFences(content) == Concat(pieces)
  {
    RemoveAllJoin(tagged, JsonFence);
    RemoveAllJoin(pieces, Fence);
  }

  /** Every fenced reply has such cuts: the ```` ```json ```` tags (none for a bare
      fence), then the fences of what is left; the stripped reply is the pieces
      between them, run together, and nothing else is removed. */
  lemma StripFencesPieces(content: string) returns (tagged: seq<string>, pieces: seq<string>)
    requires StartsWith(content, Fence)
    ensures StartsWith(content, JsonFence) ==> LeftmostCuts(tagged, JsonFence) && Join(tagged, JsonFence) == content
    ensures !StartsWith(content, JsonFence) ==> tagged == [content]
    ensures LeftmostCuts(pieces, Fence) && Join(pieces, Fence) == Concat(tagged)
    ensures StripFences(content) == Concat(pieces)
  {
    if StartsWith(content, JsonFence) {
      tagged := RemoveAllPieces(content, JsonFence);
      pieces := RemoveAllPieces(Concat(tagged), Fence);
    } else {
      tagged := [content];
      assert Concat(tagged) == content + Concat([]);
      pieces := RemoveAllPieces(content, Fence);
    }
  }

  /** `t` starts with a fence exactly when its first three characters are backticks. */
  lemma FenceAt(t: string)
    ensures StartsWith(t, Fence) <==> |t| >= 3 && t[0] == '`' && t[1] == '`' && t[2] == '`'
  {
    if |t| >= 3 {
      assert t[..3] == [t[0], t[1], t[2]];
    }
  }

  /** A non-empty text that does not start with a fence keeps its first character. */
  lemma HeadKept(t: string)
    requires |t| > 0 && !StartsWith(t, Fence)
    ensures RemoveAll(t, Fence) == [t[0]] + RemoveAll(t[1..], Fence)
  {
  }

  /** `x in c + rest` is `c + rest` starting with `x` or `x in rest`. */
  lemma OccursCons(pat: string, c: char, rest: string)
    ensures Occurs(pat, [c] + rest) <==> StartsWith([c] + rest, pat) || Occurs(pat, rest)
  {
    assert ([c] + rest)[1..] == rest;
  }

  /** Removing every fence, left to right, cannot splice a new fence together:
      a backtick kept in front of a removed fence would itself have started one. */
  lemma {:induction false} NoFenceSurvives(s: string)
    ensures !Occurs(Fence, RemoveAll(s, Fence))
    decreases |s|
  {
    if |s| == 0 {
    } else if StartsWith(s, Fence) {
      NoFenceSurvives(s[3..]);
    } else {
      var x := RemoveAll(s[1..], Fence);
      NoFenceSurvives(s[1..]);
      HeadKept(s);
      OccursCons(Fence, s[0], x);
      FenceAt(s);
      FenceAt([s[0]] + x);
      if s[0] == '`' && |s| >= 2 {
        FenceAt(s[1..]);
        HeadKept(s[1..]);
        assert x[0] == s[1];
        if s[1] == '`' && |s| >= 3 {
          FenceAt(s[2..]);
          HeadKept(s[2..]);
          assert x == [s[1]] + ([s[2]] + RemoveAll(s[3..], Fence));
          assert x[1] == s[2];
        }
      }
    }
  }

  /** A text with no backtick in it. */
  predicate NoBacktick(body: string) {
    forall k :: 0 <= k < |body| ==> body[k] != '`'
  }

  lemma RemoveFenceOnly()
    ensures RemoveAll(Fence, Fence) == ""
    ensures RemoveAll(Fence, JsonFence) == Fence
  {
    assert Fence[3..] == "";
    assert !Occurs(JsonFence, Fence);
    RemoveAllAbsent(Fence, JsonFence);
  }

  /** Wrapping a backtick-free JSON text in a ```` ```json ```` fence and stripping it gives the text back. */
  lemma StripJsonFenced(body: string)
    requires NoBacktick(body)
    ensures StripFences(JsonFence + body + Fence) == body
  {
    var content := JsonFence + body + Fence;
    assert StartsWith(content, JsonFence) by {
      assert content[..|JsonFence|] == JsonFence;
    }
    assert content[|JsonFence|..] == body + Fence;
    RemoveAllSkipsPrefix(body, Fence, JsonFence);
    RemoveFenceOnly();
    assert RemoveAll(content, JsonFence) == body + Fence;
    RemoveAllSkipsPrefix(body, Fence, Fence);
  }

  /** The same for a bare ```` ``` ```` fence, provided the text does not itself start with `json`. */
  lemma StripBareFenced(body: string)
    requires NoBacktick(body)
    requires !StartsWith(body, "json")
    ensures StripFences(Fence + body + Fence) == body
  {
    var content := Fence + body + Fence;
    assert StartsWith(content, Fence) by {
      assert content[..3] == Fence;
    }
    assert !StartsWith(content, JsonFence) by {
      if |body| >= 4 {
        assert content[3..7] == body[..4];
        assert JsonFence[3..7] == "json";
      } else {
        assert content[3 + |body|] == '`';
        assert JsonFence[3 + |body|] != '`';
      }
    }
    assert content[3..] == body + Fence;
    RemoveAllSkipsPrefix(body, Fence, Fence);
    RemoveFenceOnly();
  }
}

=== FILE: ingestion.dfy ===
/** The upload loop of `app.py`: every uploaded statement photo is sent to the
    extraction service, the cleaned reply is decoded as JSON, every decoded
    record is stamped with the file's name, and the records of all files are
    collected in upload order. A file that fails contributes nothing and does
    not stop the files after it. */
module Ingestion {
  import opened Optional
  import opened Fences

  /** A value as the JSON decoder returns it. An object keeps its members in
      insertion order, as a Python dict does. */
  datatype Json =
    | JNull
    | JBool(b: bool)
    | JNumber(n: real)
    | JString(s: string)
    | JArray(items: seq<Json>)
    | JObject(members: seq<Member>)

  datatype Member = Member(key: string, value: Json)

  /** A decoded JSON object, i.e. one extracted transaction record. */
  type Record = seq<Member>

  const SourceFileKey: string := "source_file"

  /** `record.get(key)`: the value of the first member named `key`. */
  function Lookup(record: Record, key: string): (v: Option<Json>)
    ensures v.None? <==> forall k :: 0 <= k < |record| ==> record[k].key != key
    ensures v.Some? ==> exists k :: 0 <= k < |record| && record[k] == Member(key, v.value)
  {
    if |record| == 0 then None
    else if record[0].key == key then Some(record[0].value)
    else Lookup(record[1..], key)
  }

  /** `record[key] = value`: an existing member keeps its place and takes the
      new value, a new member goes last. */
  function Put(record: Record, key: string, value: Json): (r: Record)
    ensures |r| == if Lookup(record, key).Some? then |record| else |record| + 1
    ensures forall k :: 0 <= k < |record| ==> r[k].key == record[k].key
  {
    if |record| == 0 then [Member(key, value)]
    else if record[0].key == key then [Member(key, value)] + record[1..]
    else [record[0]] + Put(record[1..], key, value)
  }

  lemma LookupCons(m: Member, rest: Record, key: string)
    ensures Lookup([m] + rest, key) == if m.key == key then Some(m.value) else Lookup(rest, key)
  {
    assert ([m] + rest)[1..] == rest;
  }

  /** After `record[key] = value` the record maps `key` to `value`, and every
      other key to what it mapped to before. */
  lemma {:induction false} PutLookup(record: Record, key: string, value: Json, other: string)
    ensures Lookup(Put(record, key, value), key) == Some(value)
    ensures other != key ==> Lookup(Put(record, key, value), other) == Lookup(record, other)
    decreases |record|
  {
    if |record| > 0 {
      assert record == [record[0]] + record[1..];
      LookupCons(record[0], record[1..], other);
      if record[0].key == key {
        LookupCons(Member(key, value), record[1..], key);
        LookupCons(Member(key, value), record[1..], other);
      } else {
        PutLookup(record[1..], key, value, other);
        LookupCons(record[0], Put(record[1..], key, value), key);
        LookupCons(record[0], Put(record[1..], key, value), other);
      }
    }
  }

  /** The `for record in data: record['source_file'] = name` step followed by
      `extend`. A list whose every element is an object yields those objects,
      each stamped with the file name. An empty object or an empty string
      iterates over nothing and yields no records. Any other value makes the
      assignment raise, and then nothing of the file is kept, even though
      earlier objects of the list were already stamped. */
  function Stamp(data: Json, name: string): (r: Option<seq<Record>>)
    ensures r.Some? ==> forall k :: 0 <= k < |r.value| ==> Lookup(r.value[k], SourceFileKey) == Some(JString(name))
    ensures data.JArray? ==> (r.Some? <==> forall k :: 0 <= k < |data.items| ==> data.items[k].JObject?)
    ensures data.JArray? && r.Some? ==>
      |r.value| == |data.items| &&
      forall k, other :: 0 <= k < |r.value| && other != SourceFileKey ==>
        Lookup(r.value[k], other) == Lookup(data.items[k].members, other)
    ensures !data.JArray? ==> (r.Some? <==> data == JObject([]) || data == JString(""))
    ensures !data.JArray? && r.Some? ==> r.value == []
  {
    match data
    case JArray(items) =>
      if forall k :: 0 <= k < |items| ==> items[k].JObject? then
        StampLookup(items, name);
        Some(seq(|items|, k requires 0 <= k < |items| => Put(items[k].members, SourceFileKey, JString(name))))
      else None
    case JObject(members) => if |members| == 0 then Some([]) else None
    case JString(text) => if |text| == 0 then Some([]) else None
    case _ => None
  }

  lemma StampLookup(items: seq<Json>, name: string)
    requires forall k :: 0 <= k < |items| ==> items[k].JObject?
    ensures forall k, other :: 0 <= k < |items| ==>
      Lookup(Put(items[k].members, SourceFileKey, JString(name)), SourceFileKey) == Some(JString(name)) &&
      (other != SourceFileKey ==>
        Lookup(Put(items[k].members, SourceFileKey, JString(name)), other) == Lookup(items[k].members, other))
  {
    forall k, other | 0 <= k < |items|
      ensures Lookup(Put(items[k].members, SourceFileKey, JString(name)), SourceFileKey) == Some(JString(name))
      ensures other != SourceFileKey ==>
        Lookup(Put(items[k].members, SourceFileKey, JString(name)), other) == Lookup(items[k].members, other)
    {
      PutLookup(items[k].members, SourceFileKey, JString(name), other);
    }
  }

  /** What the extraction step produced for one file: the image clean-up or
      the service call raised (including a reply with no content), or the
      service answered with text. */
  datatype Reply = Raised(reason: string) | Answered(content: string)

  datatype Upload = Upload(name: string, reply: Reply)

  /** The three ways a file fails: an exception from clean-up or extraction,
      text the decoder rejects (the cleaned text is shown back to the user),
      or decoded JSON that is not a list of records. */
  datatype FileError = ProcessingFailed(reason: string) | UndecodableJson(raw: string) | NotRecords

  datatype Failure = Failure(file: string, error: FileError)

  datatype FileOutcome = Accepted(records: seq<Record>) | Rejected(failure: Failure)

  /** `json.loads`: `None` stands for a decode error. */
  type Decoder = string -> Option<Json>

  /** The body of the loop for one file. */
  function ProcessFile(upload: Upload, decode: Decoder): (o: FileOutcome)
    ensures o.Rejected? ==> o.failure.file == upload.name
    ensures upload.reply.Raised? ==> o == Rejected(Failure(upload.name, ProcessingFailed(upload.reply.reason)))
    ensures upload.reply.Answered? && decode(StripFences(upload.reply.content)).None? ==>
      o == Rejected(Failure(upload.name, UndecodableJson(StripFences(upload.reply.content))))
    ensures upload.reply.Answered? && decode(StripFences(upload.reply.content)).Some? &&
            Stamp(decode(StripFences(upload.reply.content)).value, upload.name).None? ==>
      o == Rejected(Failure(upload.name, NotRecords))
    ensures o.Accepted? ==> o.records == Stamp(decode(StripFences(upload.reply.content)).value, upload.name).value
    ensures o.Accepted? ==> forall k :: 0 <= k < |o.records| ==> Lookup(o.records[k], SourceFileKey) == Some(JString(upload.name))
    ensures o.Accepted? <==> upload.reply.Answered? && decode(StripFences(upload.reply.content)).Some? &&
                             Stamp(decode(StripFences(upload.reply.content)).value, upload.name).Some?
  {
    match upload.reply
    case Raised(reason) => Rejected(Failure(upload.name, ProcessingFailed(reason)))
    case Answered(content) =>
      var cleaned := StripFences(content);
      match decode(cleaned)
      case None => Rejected(Failure(upload.name, UndecodableJson(cleaned)))
      case Some(data) =>
        match Stamp(data, upload.name)
        case None => Rejected(Failure(upload.name, NotRecords))
        case Some(records) => Accepted(records)
  }

  /** The outcome of every file, in upload order. */
  function Outcomes(uploads: seq<Upload>, decode: Decoder): (os: seq<FileOutcome>)
    ensures |os| == |uploads|
    ensures forall k :: 0 <= k < |uploads| ==> os[k] == ProcessFile(uploads[k], decode)
  {
    seq(|uploads|, k requires 0 <= k < |uploads| => ProcessFile(uploads[k], decode))
  }

  lemma OutcomesConcat(a: seq<Upload>, b: seq<Upload>, decode: Decoder)
    ensures Outcomes(a + b, decode) == Outcomes(a, decode) + Outcomes(b, decode)
  {
    var x, y, z := Outcomes(a + b, decode), Outcomes(a, decode), Outcomes(b, decode);
    forall k | 0 <= k < |x|
      ensures x[k] == (y + z)[k]
    {
      if k < |a| {
        assert (a + b)[k] == a[k];
      } else {
        assert (a + b)[k] == b[k - |a|];
      }
    }
  }

  /** The records a run of outcomes adds to `all_transactions`: those of the
      accepted files, file after file. */
  function Collected(os: seq<FileOutcome>): seq<Record> {
    if |os| == 0 then []
    else (if os[0].Accepted? then os[0].records else []) + Collected(os[1..])
  }

  /** The failures a run of outcomes reports, file after file. */
  function Reported(os: seq<FileOutcome>): seq<Failure> {
    if |os| == 0 then []
    else (if os[0].Rejected? then [os[0].failure] else []) + Reported(os[1..])
  }

  lemma {:induction false} CollectedConcat(x: seq<FileOutcome>, y: seq<FileOutcome>)
    ensures Collected(x + y) == Collected(x) + Collected(y)
    ensures Reported(x + y) == Reported(x) + Reported(y)
  {
    if |x| > 0 {
      assert (x + y)[1..] == x[1..] + y;
      CollectedConcat(x[1..], y);
    } else {
      assert x + y == y;
    }
  }

  /** Every collected record belongs to an accepted outcome. */
  lemma {:induction false} CollectedFrom(os: seq<FileOutcome>, r: Record)
    requires r in Collected(os)
    ensures exists k :: 0 <= k < |os| && os[k].Accepted? && r in os[k].records
  {
    if !(os[0].Accepted? && r in os[0].records) {
      CollectedFrom(os[1..], r);
      var k :| 0 <= k < |os[1..]| && os[1..][k].Accepted? && r in os[1..][k].records;
      assert os[k + 1] == os[1..][k];
    }
  }

  /** Every reported failure belongs to a rejected outcome. */
  lemma {:induction false} ReportedFrom(os: seq<FileOutcome>, f: Failure)
    requires f in Reported(os)
    ensures exists k :: 0 <= k < |os| && os[k] == Rejected(f)
  {
    if os[0] != Rejected(f) {
      ReportedFrom(os[1..], f);
      var k :| 0 <= k < |os[1..]| && os[1..][k] == Rejected(f);
      assert os[k + 1] == os[1..][k];
    }
  }

  /** Reference definition: the records of the accepted files, in upload order. */
  function AcceptedRecords(uploads: seq<Upload>, decode: Decoder): seq<Record> {
    Collected(Outcomes(uploads, decode))
  }

  /** Reference definition: the failures, in upload order. */
  function Failures(uploads: seq<Upload>, decode: Decoder): seq<Failure> {
    Reported(Outcomes(uploads, decode))
  }

  /** Processing two batches one after the other gives the same records and
      failures as processing them together: files do not influence each other. */
  lemma ConcatUploads(a: seq<Upload>, b: seq<Upload>, decode: Decoder)
    ensures AcceptedRecords(a + b, decode) == AcceptedRecords(a, decode) + AcceptedRecords(b, decode)
    ensures Failures(a + b, decode) == Failures(a, decode) + Failures(b, decode)
  {
    OutcomesConcat(a, b, decode);
    CollectedConcat(Outcomes(a, decode), Outcomes(b, decode));
  }

  /** One file on its own contributes its records or its failure. */
  lemma Single(u: Upload, decode: Decoder)
    ensures ProcessFile(u, decode).Accepted? ==>
      AcceptedRecords([u], decode) == ProcessFile(u, decode).records && Failures([u], decode) == []
    ensures ProcessFile(u, decode).Rejected? ==>
      AcceptedRecords([u], decode) == [] && Failures([u], decode) == [ProcessFile(u, decode).failure]
  {
    var os := Outcomes([u], decode);
    assert os == [ProcessFile(u, decode)];
    assert os[1..] == [];
    assert Collected(os) == (if os[0].Accepted? then os[0].records else []) + Collected(os[1..]);
    assert Reported(os) == (if os[0].Rejected? then [os[0].failure] else []) + Reported(os[1..]);
  }

  /** A failing file changes nothing for the files around it. */
  lemma RejectedAddsNothing(a: seq<Upload>, u: Upload, b: seq<Upload>, decode: Decoder)
    requires ProcessFile(u, decode).Rejected?
    ensures AcceptedRecords(a + [u] + b, decode) == AcceptedRecords(a + b, decode)
    ensures Failures(a + [u] + b, decode) == Failures(a, decode) + [ProcessFile(u, decode).failure] + Failures(b, decode)
  {
    ConcatUploads(a + [u], b, decode);
    ConcatUploads(a, [u], decode);
    ConcatUploads(a, b, decode);
    Single(u, decode);
  }

  /** Every collected record comes from an accepted file and names that file. */
  lemma Provenance(uploads: seq<Upload>, decode: Decoder)
    ensures forall r :: r in AcceptedRecords(uploads, decode) ==>
      exists k :: && 0 <= k < |uploads|
                  && ProcessFile(uploads[k], decode).Accepted?
                  && r in ProcessFile(uploads[k], decode).records
                  && Lookup(r, SourceFileKey) == Some(JString(uploads[k].name))
  {
    var os := Outcomes(uploads, decode);
    forall r | r in Collected(os)
      ensures exists k :: && 0 <= k < |uploads|
                          && ProcessFile(uploads[k], decode).Accepted?
                          && r in ProcessFile(uploads[k], decode).records
                          && Lookup(r, SourceFileKey) == Some(JString(uploads[k].name))
    {
      CollectedFrom(os, r);
      var k :| 0 <= k < |os| && os[k].Accepted? && r in os[k].records;
      var o := ProcessFile(uploads[k], decode);
      assert o == os[k];
      var m :| 0 <= m < |o.records| && o.records[m] == r;
      assert Lookup(o.records[m], SourceFileKey) == Some(JString(uploads[k].name));
    }
  }

  /** Every reported failure names an uploaded file, and that file was rejected. */
  lemma FailuresNamed(uploads: seq<Upload>, decode: Decoder)
    ensures forall f :: f in Failures(uploads, decode) ==>
      exists k :: 0 <= k < |uploads| && f.file == uploads[k].name && ProcessFile(uploads[k], decode) == Rejected(f)
  {
    var os := Outcomes(uploads, decode);
    forall f | f in Reported(os)
      ensures exists k :: 0 <= k < |uploads| && f.file == uploads[k].name && ProcessFile(uploads[k], decode) == Rejected(f)
    {
      ReportedFrom(os, f);
      var k :| 0 <= k < |os| && os[k] == Rejected(f);
      assert ProcessFile(uploads[k], decode) == os[k];
    }
  }

  /** A progress fraction `(i + 1) / n`. */
  function Fraction(i: nat, n: nat): real
    requires n > 0
  {
    (i + 1) as real / n as real
  }

  lemma FractionTimes(k: nat, n: nat)
    requires n > 0
    ensures Fraction(k, n) * (n as real) == (k + 1) as real
  {
  }

  /** What `q * d == m` with `d > 0` says about `q`. */
  lemma Ratio(q: real, d: real, m: real)
    requires d > 0.0 && q * d == m
    ensures m > 0.0 ==> q > 0.0
    ensures m <= d ==> q <= 1.0
    ensures m == d ==> q == 1.0
  {
    assert (q - 1.0) * d == m - d;
  }

  lemma RatioOrder(q1: real, q2: real, d: real, m1: real, m2: real)
    requires d > 0.0 && q1 * d == m1 && q2 * d == m2 && m1 < m2
    ensures q1 < q2
  {
    assert (q2 - q1) * d == m2 - m1;
  }

  lemma FractionIncreases(i: nat, j: nat, n: nat)
    requires i < j && n > 0
    ensures Fraction(i, n) < Fraction(j, n)
  {
    FractionTimes(i, n);
    FractionTimes(j, n);
    RatioOrder(Fraction(i, n), Fraction(j, n), n as real, (i + 1) as real, (j + 1) as real);
  }

  lemma FractionBounds(k: nat, n: nat)
    requires k < n
    ensures 0.0 < Fraction(k, n) <= 1.0
    ensures k == n - 1 ==> Fraction(k, n) == 1.0
  {
    FractionTimes(k, n);
    Ratio(Fraction(k, n), n as real, (k + 1) as real);
  }

  /** The bar's values after the first `i` of `n` files. */
  function Progress(i: nat, n: nat): seq<real>
    requires i <= n && n > 0
  {
    if i == 0 then [] else Progress(i - 1, n) + [Fraction(i - 1, n)]
  }

  lemma {:induction false} ProgressValues(i: nat, n: nat)
    requires i <= n && n > 0
    ensures |Progress(i, n)| == i
    ensures forall k :: 0 <= k < i ==> Progress(i, n)[k] == Fraction(k, n)
  {
    if i > 0 {
      ProgressValues(i - 1, n);
    }
  }

  /** After all `n` files the bar holds `n` values that rise strictly, stay
      within (0, 1] and end at 1. */
  lemma ProgressRises(p: seq<real>, n: nat)
    requires n > 0 && p == Progress(n, n)
    ensures |p| == n
    ensures forall k :: 0 <= k < n ==> p[k] == Fraction(k, n)
    ensures forall k, l :: 0 <= k < l < n ==> 0.0 < p[k] < p[l] <= 1.0
    ensures p[n - 1] == 1.0
  {
    ProgressValues(n, n);
    forall k, l | 0 <= k < l < n
      ensures 0.0 < p[k] < p[l] <= 1.0
    {
      FractionIncreases(k, l, n);
      FractionBounds(k, n);
      FractionBounds(l, n);
    }
    FractionBounds(n - 1, n);
  }

  datatype Report = Report(records: seq<Record>, failures: seq<Failure>, progress: seq<real>)

  /** The loop over the uploaded files, reporting the progress bar's value
      after each file. */
  method Ingest(uploads: seq<Upload>, decode: Decoder) returns (report: Report)
    ensures report.records == AcceptedRecords(uploads, decode)
    ensures report.failures == Failures(uploads, decode)
    ensures |report.progress| == |uploads|
    ensures forall k :: 0 <= k < |uploads| ==> report.progress[k] == Fraction(k, |uploads|)
    ensures forall k, l :: 0 <= k < l < |report.progress| ==> 0.0 < report.progress[k] < report.progress[l] <= 1.0
    ensures |uploads| > 0 ==> report.progress[|uploads| - 1] == 1.0
  {
    var records: seq<Record> := [];
    var failures: seq<Failure> := [];
    var progress: seq<real> := [];
    if |uploads| == 0 {
      return Report([], [], []);
    }
    var i := 0;
    while i < |uploads|
      invariant 0 <= i <= |uploads|
      invariant records == AcceptedRecords(uploads[..i], decode)
      invariant failures == Failures(uploads[..i], decode)
      invariant progress == Progress(i, |uploads|)
    {
      ConcatUploads(uploads[..i], [uploads[i]], decode);
      Single(uploads[i], decode);
      match ProcessFile(uploads[i], decode) {
        case Accepted(rs) => records := records + rs;
        case Rejected(f) => failures := failures + [f];
      }
      progress := progress + [Fraction(i, |uploads|)];
      assert uploads[..i + 1] == uploads[..i] + [uploads[i]];
      i := i + 1;
    }
    assert uploads[..i] == uploads;
    ProgressRises(progress, |uploads|);
    report := Report(records, failures, progress);
  }
}

=== FILE: ledger.dfy ===
/** The transaction store of `database.py`: three SQLite tables held as
    immutable values, with the `UNIQUE` constraints of the schema as the
    store invariant `Valid`. Every operation returns the new store instead of
    committing to a database file. */
module Ledger {
  import opened Optional
  import Seqs

  /** The sentinel category of every freshly saved transaction. */
  const Uncategorized: string := "Uncategorized"

  /** The names `init_db` seeds into an empty categories table, in seeding order. */
  const DefaultCategoryNames: seq<string> := [
    "Uncategorized", "Revenue", "COGS", "OpEx", "Marketing",
    "Salaries", "Rent", "Software", "Meals", "Travel",
    "Personal", "Transfer", "Utilities", "Insurance", "Taxes"
  ]

  /** One numeric cell of an extracted row, as `pd.to_numeric(..., errors='coerce')`
      sees it: no value (NaN), a number, or something that coerces to NaN. */
  datatype Cell = Absent | Numeric(value: real) | NotNumeric

  /** The cells of one row of the DataFrame handed to `save_transactions` that
      the function reads; `None` and `Absent` mark a cell without a value. */
  datatype RawRow = RawRow(
    date: Option<string>,
    description: Option<string>,
    withdrawal: Cell,
    deposit: Cell,
    sourceFile: Option<string>)

  /** The DataFrame itself: its column labels and its rows. pandas decides per
      frame, not per row, whether `row.get(name, default)` finds a column. */
  datatype Frame = Frame(columns: set<string>, rows: seq<RawRow>)

  /** `df.empty`: the frame has no rows or no columns. */
  predicate EmptyFrame(df: Frame) {
    |df.rows| == 0 || df.columns == {}
  }

  /** The text `row.get(name, ...)` reads: the row's cell when the frame has the column. */
  function TextCell(columns: set<string>, name: string, cell: Option<string>): Option<string> {
    if name in columns then cell else None
  }

  /** The numeric cell `row.get(name, 0)` reads: the row's cell when the frame has
      the column, otherwise the default 0, which coerces like a missing value. */
  function NumberCell(columns: set<string>, name: string, cell: Cell): Cell {
    if name in columns then cell else Absent
  }

  /** The columns of `UNIQUE(date, description, amount, source_file)`. */
  datatype NaturalKey = NaturalKey(date: string, description: string, amount: real, sourceFile: string)

  /** A normalised row waiting for `INSERT OR IGNORE`; SQLite has not given it an id yet. */
  datatype NewRow = NewRow(date: string, description: string, amount: real, category: string, sourceFile: string) {
    function Key(): NaturalKey {
      NaturalKey(date, description, amount, sourceFile)
    }
  }

  /** A row of the `transactions` table; `id` is the AUTOINCREMENT primary key. */
  datatype Transaction = Transaction(id: nat, date: string, description: string, amount: real, category: string, sourceFile: string) {
    function Key(): NaturalKey {
      NaturalKey(date, description, amount, sourceFile)
    }
    function Row(): NewRow {
      NewRow(date, description, amount, category, sourceFile)
    }
  }

  /** A row of the `rules` table. */
  datatype Rule = Rule(id: nat, keyword: string, categoryName: string)

  /** The whole database. `nextTransactionId` and `nextRuleId` play the part of
      SQLite's AUTOINCREMENT counters; `categories` is the set of names in the
      `categories` table (its ids are never read). */
  datatype Store = Store(
    transactions: seq<Transaction>,
    nextTransactionId: nat,
    categories: set<string>,
    rules: seq<Rule>,
    nextRuleId: nat)

  /** The database right after the `CREATE TABLE` statements, before seeding. */
  const EmptyStore: Store := Store([], 1, {}, [], 1)

  /** The constraints of the `transactions` table: ids assigned in increasing
      order below the AUTOINCREMENT counter, and the natural key unique. */
  predicate TableValid(txns: seq<Transaction>, nextId: nat) {
    && (forall i, j :: 0 <= i < j < |txns| ==> txns[i].id < txns[j].id)
    && (forall i :: 0 <= i < |txns| ==> txns[i].id < nextId)
    && (forall i, j :: 0 <= i < j < |txns| ==> txns[i].Key() != txns[j].Key())
  }

  /** The constraints of the `rules` table: ids and keywords unique, ids below the counter. */
  predicate RulesValid(rules: seq<Rule>, nextId: nat) {
    && Seqs.Distinct(rules)
    && (forall a, b :: a in rules && b in rules && a != b ==> a.id != b.id && a.keyword != b.keyword)
    && (forall a :: a in rules ==> a.id < nextId)
  }

  /** The schema's constraints over the whole store. */
  predicate Valid(s: Store) {
    TableValid(s.transactions, s.nextTransactionId) && RulesValid(s.rules, s.nextRuleId)
  }

  /** The natural keys present in a table. */
  function Keys(txns: seq<Transaction>): set<NaturalKey> {
    set t | t in txns :: t.Key()
  }

  function RowKeys(rows: seq<NewRow>): set<NaturalKey> {
    set r | r in rows :: r.Key()
  }

  lemma KeysAppend(txns: seq<Transaction>, t: Transaction)
    ensures Keys(txns + [t]) == Keys(txns) + {t.Key()}
  {
    assert forall u :: u in txns + [t] <==> u in txns || u == t;
  }

  /** Appending a row with a fresh natural key under the counter keeps the table valid. */
  lemma AppendValid(txns: seq<Transaction>, nextId: nat, t: Transaction)
    requires TableValid(txns, nextId)
    requires t.id == nextId && t.Key() !in Keys(txns)
    ensures TableValid(txns + [t], nextId + 1)
  {
    var r := txns + [t];
    forall i, j | 0 <= i < j < |r| ensures r[i].Key() != r[j].Key() {
      if j == |txns| {
        assert r[i] in txns;
      }
    }
  }

  lemma RowKeysCons(rows: seq<NewRow>)
    requires |rows| > 0
    ensures RowKeys(rows) == {rows[0].Key()} + RowKeys(rows[1..])
  {
    assert forall r :: r in rows <==> r == rows[0] || r in rows[1..] by {
      assert rows == [rows[0]] + rows[1..];
    }
  }

  // ---------------------------------------------------------------------------
  // save_transactions

  /** `pd.to_numeric(value, errors='coerce')` followed by the NaN-to-zero step. */
  function Coerce(c: Cell): real {
    match c
    case Numeric(x) => x
    case _ => 0.0
  }

  /** The per-row normalisation of `save_transactions` for a frame with the given
      columns: the withdrawal/deposit pair becomes one signed amount, text columns
      the frame lacks take their defaults, and the category is always the sentinel. */
  function Normalize(columns: set<string>, row: RawRow, filename: string): (r: NewRow)
    ensures r.category == Uncategorized
    ensures var w, d := NumberCell(columns, "withdrawal", row.withdrawal), NumberCell(columns, "deposit", row.deposit);
            && (w.Numeric? && d.Numeric? ==> r.amount == d.value - w.value)
            && (!w.Numeric? ==> r.amount == Coerce(d))
            && (!d.Numeric? ==> r.amount == -Coerce(w))
    ensures "date" !in columns ==> r.date == ""
    ensures "description" !in columns ==> r.description == ""
    ensures "source_file" !in columns ==> r.sourceFile == filename
    ensures "date" in columns && row.date.Some? ==> r.date == row.date.value
    ensures "description" in columns && row.description.Some? ==> r.description == row.description.value
    ensures "source_file" in columns && row.sourceFile.Some? ==> r.sourceFile == row.sourceFile.value
  {
    NewRow(
      TextCell(columns, "date", row.date).OrElse(""),
      TextCell(columns, "description", row.description).OrElse(""),
      Coerce(NumberCell(columns, "deposit", row.deposit)) - Coerce(NumberCell(columns, "withdrawal", row.withdrawal)),
      Uncategorized,
      TextCell(columns, "source_file", row.sourceFile).OrElse(filename))
  }

  /** The batch `save_transactions` hands to `executemany`: nothing for an empty
      frame, otherwise one normalised row per frame row, in order. */
  function Batch(df: Frame, filename: string): (r: seq<NewRow>)
    ensures EmptyFrame(df) ==> r == []
    ensures !EmptyFrame(df) ==> |r| == |df.rows|
    ensures !EmptyFrame(df) ==> forall j :: 0 <= j < |df.rows| ==> r[j] == Normalize(df.columns, df.rows[j], filename)
  {
    if EmptyFrame(df) then []
    else seq(|df.rows|, j requires 0 <= j < |df.rows| => Normalize(df.columns, df.rows[j], filename))
  }

  /** A store after a write, with the number of rows the write reported. */
  datatype Saved = Saved(store: Store, count: nat)

  /** `INSERT OR IGNORE` of a single row. */
  function InsertOrIgnore(s: Store, row: NewRow): (r: Saved)
    ensures r.store.categories == s.categories && r.store.rules == s.rules && r.store.nextRuleId == s.nextRuleId
    ensures Keys(r.store.transactions) == Keys(s.transactions) + {row.Key()}
    ensures row.Key() in Keys(s.transactions) ==> r == Saved(s, 0)
    ensures row.Key() !in Keys(s.transactions) ==>
              && r.count == 1
              && r.store.transactions == s.transactions + [Transaction(s.nextTransactionId, row.date, row.description, row.amount, row.category, row.sourceFile)]
              && r.store.nextTransactionId == s.nextTransactionId + 1
  {
    if row.Key() in Keys(s.transactions) then
      Saved(s, 0)
    else
      var t := Transaction(s.nextTransactionId, row.date, row.description, row.amount, row.category, row.sourceFile);
      KeysAppend(s.transactions, t);
      Saved(s.(transactions := s.transactions + [t], nextTransactionId := s.nextTransactionId + 1), 1)
  }

  /** The rows a store gained, past the first `n`. */
  function Added(after: Store, n: nat): seq<Transaction>
    requires n <= |after.transactions|
  {
    after.transactions[n..]
  }

  /** `executemany` of `INSERT OR IGNORE` over a batch, with `cursor.rowcount`
      as the count: rows already in the store are kept as they are, the store
      ends up holding every natural key of the batch, every row it gains has a
      natural key it did not hold before, and the count is the number of rows it
      gained. */
  function InsertAll(s: Store, rows: seq<NewRow>): (r: Saved)
    ensures r.store.categories == s.categories && r.store.rules == s.rules && r.store.nextRuleId == s.nextRuleId
    ensures |s.transactions| <= |r.store.transactions|
    ensures r.store.transactions[..|s.transactions|] == s.transactions
    ensures Keys(r.store.transactions) == Keys(s.transactions) + RowKeys(rows)
    ensures forall k :: |s.transactions| <= k < |r.store.transactions| ==> r.store.transactions[k].Key() !in Keys(s.transactions)
    ensures r.count == |r.store.transactions| - |s.transactions|
    decreases |rows|
  {
    if |rows| == 0 then
      assert RowKeys(rows) == {};
      Saved(s, 0)
    else
      var first := InsertOrIgnore(s, rows[0]);
      var rest := InsertAll(first.store, rows[1..]);
      RowKeysCons(rows);
      GrowthChains(s.transactions, first.store.transactions, rest.store.transactions);
      Saved(rest.store, first.count + rest.count)
  }

  /** Two growth steps, each keeping the old rows and adding only rows with
      unseen keys, make one such step. */
  lemma GrowthChains(a: seq<Transaction>, b: seq<Transaction>, c: seq<Transaction>)
    requires |a| <= |b| <= |c| && b[..|a|] == a && c[..|b|] == b
    requires Keys(a) <= Keys(b)
    requires forall k :: |a| <= k < |b| ==> b[k].Key() !in Keys(a)
    requires forall k :: |b| <= k < |c| ==> c[k].Key() !in Keys(b)
    ensures c[..|a|] == a
    ensures forall k :: |a| <= k < |c| ==> c[k].Key() !in Keys(a)
  {
    assert c[..|a|] == c[..|b|][..|a|];
    forall k | |a| <= k < |c|
      ensures c[k].Key() !in Keys(a)
    {
      if k < |b| {
        assert c[k] == c[..|b|][k];
      }
    }
  }

  /** A batch insert keeps the schema's constraints. */
  lemma {:induction false} InsertAllValid(s: Store, rows: seq<NewRow>)
    requires Valid(s)
    ensures Valid(InsertAll(s, rows).store)
    decreases |rows|
  {
    if |rows| > 0 {
      var first := InsertOrIgnore(s, rows[0]);
      if rows[0].Key() !in Keys(s.transactions) {
        AppendValid(s.transactions, s.nextTransactionId, first.store.transactions[|s.transactions|]);
      }
      InsertAllValid(first.store, rows[1..]);
    }
  }

  /** The count reported by a batch insert is the number of distinct natural keys
      of the batch that the store did not already hold. */
  lemma {:induction false} InsertAllCount(s: Store, rows: seq<NewRow>)
    ensures InsertAll(s, rows).count == |RowKeys(rows) - Keys(s.transactions)|
    decreases |rows|
  {
    if |rows| == 0 {
      assert RowKeys(rows) == {};
    } else {
      var first := InsertOrIgnore(s, rows[0]);
      var rest := InsertAll(first.store, rows[1..]);
      assert InsertAll(s, rows).count == first.count + rest.count;
      InsertAllCount(first.store, rows[1..]);
      RowKeysCons(rows);
      FreshKeysStep(rows[0].Key(), RowKeys(rows[1..]), Keys(s.transactions));
    }
  }

  lemma FreshKeysStep(k0: NaturalKey, tail: set<NaturalKey>, known: set<NaturalKey>)
    ensures |({k0} + tail) - known| == (if k0 in known then 0 else 1) + |tail - (known + {k0})|
  {
    if k0 in known {
      assert ({k0} + tail) - known == tail - (known + {k0});
    } else {
      assert ({k0} + tail) - known == {k0} + (tail - (known + {k0}));
    }
  }

  /** `rows[j]` is the first row of the batch carrying its natural key. */
  predicate FirstWithKey(rows: seq<NewRow>, j: int) {
    0 <= j < |rows| && forall i :: 0 <= i < j ==> rows[i].Key() != rows[j].Key()
  }

  /** Each of `added` is, column for column, the first row of `rows` with its natural key. */
  ghost predicate FromBatch(added: seq<Transaction>, rows: seq<NewRow>) {
    forall t :: t in added ==> exists j :: FirstWithKey(rows, j) && rows[j] == t.Row()
  }

  /** Every row a batch insert adds is, column for column, the first row of the
      batch with that natural key: later repeats within the batch are ignored. */
  lemma {:induction false} InsertAllProvenance(s: Store, rows: seq<NewRow>)
    ensures FromBatch(Added(InsertAll(s, rows).store, |s.transactions|), rows)
    decreases |rows|
  {
    if |rows| > 0 {
      var n := |s.transactions|;
      var first := InsertOrIgnore(s, rows[0]);
      var rest := InsertAll(first.store, rows[1..]);
      var m := |first.store.transactions|;
      InsertAllProvenance(first.store, rows[1..]);
      assert InsertAll(s, rows).store == rest.store;
      var head, tail := Added(first.store, n), Added(rest.store, m);
      SuffixSplit(first.store.transactions, rest.store.transactions, n);
      assert rows[0].Key() in Keys(first.store.transactions);
      ProvenanceStep(rows, head, tail);
    }
  }

  lemma ProvenanceStep(rows: seq<NewRow>, head: seq<Transaction>, tail: seq<Transaction>)
    requires |rows| > 0
    requires |head| <= 1 && (|head| == 1 ==> head[0].Row() == rows[0])
    requires FromBatch(tail, rows[1..])
    requires forall k :: 0 <= k < |tail| ==> tail[k].Key() != rows[0].Key()
    ensures FromBatch(head + tail, rows)
  {
    forall t | t in head + tail ensures exists j :: FirstWithKey(rows, j) && rows[j] == t.Row() {
      if t in head {
        assert FirstWithKey(rows, 0);
      } else {
        var j :| FirstWithKey(rows[1..], j) && rows[1..][j] == t.Row();
        FirstWithKeyShift(rows, j);
      }
    }
  }

  lemma FirstWithKeyShift(rows: seq<NewRow>, j: int)
    requires |rows| > 0 && FirstWithKey(rows[1..], j)
    requires rows[0].Key() != rows[j + 1].Key()
    ensures FirstWithKey(rows, j + 1)
  {
    forall i | 0 <= i < j + 1 ensures rows[i].Key() != rows[j + 1].Key() {
      if i > 0 {
        assert rows[i] == rows[1..][i - 1] && rows[j + 1] == rows[1..][j];
      }
    }
  }

  lemma SuffixSplit<T>(mid: seq<T>, after: seq<T>, n: nat)
    requires n <= |mid| <= |after| && after[..|mid|] == mid
    ensures after[n..] == mid[n..] + after[|mid|..]
  {
  }

  /** A batch whose natural keys the store already holds changes nothing and reports 0. */
  lemma {:induction false} InsertAllKnown(s: Store, rows: seq<NewRow>)
    requires RowKeys(rows) <= Keys(s.transactions)
    ensures InsertAll(s, rows) == Saved(s, 0)
    decreases |rows|
  {
    if |rows| > 0 {
      RowKeysCons(rows);
      assert InsertOrIgnore(s, rows[0]) == Saved(s, 0);
      InsertAllKnown(s, rows[1..]);
    }
  }

  /** `save_transactions(df, filename)`: an empty frame returns 0 before touching
      the store; otherwise every row is normalised and the batch inserted with
      `INSERT OR IGNORE`. Existing rows are never modified, afterwards every row
      of the batch is present by natural key, and the count is the number of rows gained. */
  function SaveTransactions(s: Store, df: Frame, filename: string): (r: Saved)
    requires Valid(s)
    ensures Valid(r.store)
    ensures EmptyFrame(df) ==> r == Saved(s, 0)
    ensures r.store.categories == s.categories && r.store.rules == s.rules && r.store.nextRuleId == s.nextRuleId
    ensures |s.transactions| <= |r.store.transactions|
    ensures r.store.transactions[..|s.transactions|] == s.transactions
    ensures !EmptyFrame(df) ==> forall j :: 0 <= j < |df.rows| ==> Normalize(df.columns, df.rows[j], filename).Key() in Keys(r.store.transactions)
    ensures r.count == |r.store.transactions| - |s.transactions|
  {
    if EmptyFrame(df) then
      Saved(s, 0)
    else
      var batch := Batch(df, filename);
      InsertAllValid(s, batch);
      assert forall j :: 0 <= j < |df.rows| ==> batch[j] in batch;
      InsertAll(s, batch)
  }

  /** The count `save_transactions` returns is the number of distinct natural keys
      of the normalised batch that the store did not already hold: repeats within
      the batch and rows already stored are both skipped, and an empty frame,
      with no batch at all, counts 0. */
  lemma SaveCount(s: Store, df: Frame, filename: string)
    requires Valid(s)
    ensures SaveTransactions(s, df, filename).count == |RowKeys(Batch(df, filename)) - Keys(s.transactions)|
  {
    if EmptyFrame(df) {
      assert RowKeys(Batch(df, filename)) == {};
    } else {
      InsertAllCount(s, Batch(df, filename));
    }
  }

  /** Every row `save_transactions` adds is a normalised row of the frame (the
      first with its natural key) and is uncategorised. */
  lemma SaveAddsNormalizedRows(s: Store, df: Frame, filename: string)
    requires Valid(s)
    ensures var r := SaveTransactions(s, df, filename);
            forall t :: t in Added(r.store, |s.transactions|) ==>
              t.category == Uncategorized && exists j :: 0 <= j < |df.rows| && Normalize(df.columns, df.rows[j], filename) == t.Row()
  {
    if !EmptyFrame(df) {
      var batch := Batch(df, filename);
      InsertAllProvenance(s, batch);
      NormalizedProvenance(Added(InsertAll(s, batch).store, |s.transactions|), df, filename);
    }
  }

  /** Saving the same frame a second time inserts nothing and leaves the store as it was. */
  lemma SaveTwice(s: Store, df: Frame, filename: string)
    requires Valid(s)
    ensures var once := SaveTransactions(s, df, filename);
            SaveTransactions(once.store, df, filename) == Saved(once.store, 0)
  {
    var once := SaveTransactions(s, df, filename);
    if !EmptyFrame(df) {
      var batch := Batch(df, filename);
      assert once == InsertAll(s, batch);
      InsertAllKnown(once.store, batch);
    }
  }

  lemma NormalizedProvenance(added: seq<Transaction>, df: Frame, filename: string)
    requires !EmptyFrame(df)
    requires FromBatch(added, Batch(df, filename))
    ensures forall t :: t in added ==>
              t.category == Uncategorized && exists j :: 0 <= j < |df.rows| && Normalize(df.columns, df.rows[j], filename) == t.Row()
  {
    forall t | t in added
      ensures t.category == Uncategorized && exists j :: 0 <= j < |df.rows| && Normalize(df.columns, df.rows[j], filename) == t.Row()
    {
      var j :| FirstWithKey(Batch(df, filename), j) && Batch(df, filename)[j] == t.Row();
    }
  }

  // ---------------------------------------------------------------------------
  // update_category / update_categories_batch

  /** One `(id, new_category)` pair of `update_categories_batch`. */
  datatype CategoryUpdate = CategoryUpdate(id: nat, category: string)

  /** The category the last entry for `id` carries, if any entry does. */
  function LatestCategory(updates: seq<CategoryUpdate>, id: nat): (r: Option<string>)
    ensures r.None? <==> forall k :: 0 <= k < |updates| ==> updates[k].id != id
    ensures r.Some? ==> exists k :: 0 <= k < |updates| && updates[k] == CategoryUpdate(id, r.value)
                                    && forall k' :: k < k' < |updates| ==> updates[k'].id != id
    decreases |updates|
  {
    if |updates| == 0 then None
    else
      var later := LatestCategory(updates[1..], id);
      if later.Some? then
        var k :| 0 <= k < |updates[1..]| && updates[1..][k] == CategoryUpdate(id, later.value)
                 && forall k' :: k < k' < |updates[1..]| ==> updates[1..][k'].id != id;
        assert updates[k + 1] == CategoryUpdate(id, later.value);
        assert forall k' :: k + 1 < k' < |updates| ==> updates[k'] == updates[1..][k' - 1];
        later
      else if updates[0].id == id then
        assert forall k' :: 0 < k' < |updates| ==> updates[k'] == updates[1..][k' - 1];
        Some(updates[0].category)
      else
        assert forall k :: 0 < k < |updates| ==> updates[k] == updates[1..][k - 1];
        None
  }

  /** Only the category column may differ between `before` and `after`, row by row. */
  predicate OnlyCategoriesChanged(before: seq<Transaction>, after: seq<Transaction>) {
    |after| == |before| && forall i :: 0 <= i < |before| ==> after[i].(category := before[i].category) == before[i]
  }

  lemma OnlyCategoriesChangedValid(s: Store, r: Store)
    requires Valid(s)
    requires OnlyCategoriesChanged(s.transactions, r.transactions)
    requires r.nextTransactionId == s.nextTransactionId && r.rules == s.rules && r.nextRuleId == s.nextRuleId
    ensures Valid(r)
  {
    forall i | 0 <= i < |s.transactions|
      ensures r.transactions[i].id == s.transactions[i].id && r.transactions[i].Key() == s.transactions[i].Key()
    {
      assert r.transactions[i].(category := s.transactions[i].category) == s.transactions[i];
    }
  }

  /** `update_category(id, new_category)`: `UPDATE transactions SET category = ? WHERE id = ?`.
      The row with that id gets the new category, and nothing else changes; an
      unknown id changes nothing. */
  function UpdateCategory(s: Store, id: nat, category: string): (r: Store)
    ensures r == s.(transactions := r.transactions)
    ensures OnlyCategoriesChanged(s.transactions, r.transactions)
    ensures forall i :: 0 <= i < |s.transactions| && s.transactions[i].id == id ==> r.transactions[i].category == category
    ensures forall i :: 0 <= i < |s.transactions| && s.transactions[i].id != id ==> r.transactions[i] == s.transactions[i]
  {
    var txns := seq(|s.transactions|, i requires 0 <= i < |s.transactions| =>
      var t := s.transactions[i];
      if t.id == id then t.(category := category) else t);
    s.(transactions := txns)
  }

  /** `update_categories_batch(updates)`: the updates run in list order, so for
      each row the last entry naming its id wins; ids that name no row change
      nothing, and no other column or row changes. */
  function UpdateCategoriesBatch(s: Store, updates: seq<CategoryUpdate>): (r: Store)
    ensures r == s.(transactions := r.transactions)
    ensures OnlyCategoriesChanged(s.transactions, r.transactions)
    ensures forall i :: 0 <= i < |s.transactions| ==>
              r.transactions[i].category == LatestCategory(updates, s.transactions[i].id).OrElse(s.transactions[i].category)
    decreases |updates|
  {
    if |updates| == 0 then s
    else UpdateCategoriesBatch(UpdateCategory(s, updates[0].id, updates[0].category), updates[1..])
  }

  /** `update_category` is the batch update with a single entry. */
  lemma UpdateCategoryIsSingletonBatch(s: Store, id: nat, category: string)
    ensures UpdateCategory(s, id, category) == UpdateCategoriesBatch(s, [CategoryUpdate(id, category)])
  {
    var one := UpdateCategoriesBatch(s, [CategoryUpdate(id, category)]);
    var single := UpdateCategory(s, id, category);
    assert |one.transactions| == |single.transactions|;
    forall i | 0 <= i < |s.transactions| ensures one.transactions[i] == single.transactions[i] {
      assert one.transactions[i].(category := s.transactions[i].category) == s.transactions[i];
      assert single.transactions[i].(category := s.transactions[i].category) == s.transactions[i];
    }
  }

  // ---------------------------------------------------------------------------
  // Categories and rules

  /** The store after an insert that a UNIQUE constraint may refuse, with the function's return value. */
  datatype Inserted = Inserted(store: Store, added: bool)

  /** `add_category(name)`: refused (False, nothing changes) when the name exists,
      otherwise the name is added and the result is True. */
  function AddCategory(s: Store, name: string): (r: Inserted)
    ensures r.added <==> name !in s.categories
    ensures r.store == s.(categories := s.categories + {name})
    ensures r.added ==> |r.store.categories| == |s.categories| + 1
  {
    if name in s.categories then Inserted(s, false)
    else Inserted(s.(categories := s.categories + {name}), true)
  }

  /** `delete_category(name)`: the name leaves the categories table, while
      transactions and rules that still mention it are left as they are. */
  function DeleteCategory(s: Store, name: string): (r: Store)
    ensures name !in r.categories
    ensures forall c :: c != name ==> (c in r.categories <==> c in s.categories)
    ensures r.transactions == s.transactions && r.rules == s.rules
    ensures r.nextTransactionId == s.nextTransactionId && r.nextRuleId == s.nextRuleId
  {
    s.(categories := s.categories - {name})
  }

  /** `add_rule(keyword, category_name)`: refused (False, nothing changes) when a
      rule already has that keyword (compared exactly); otherwise one rule with a
      fresh id is appended and the result is True. The category name is not checked. */
  function AddRule(s: Store, keyword: string, categoryName: string): (r: Inserted)
    requires Valid(s)
    ensures Valid(r.store)
    ensures r.added <==> forall k :: 0 <= k < |s.rules| ==> s.rules[k].keyword != keyword
    ensures !r.added ==> r.store == s
    ensures r.added ==> && |r.store.rules| == |s.rules| + 1
                        && r.store.rules[..|s.rules|] == s.rules
                        && r.store.rules[|s.rules|].keyword == keyword
                        && r.store.rules[|s.rules|].categoryName == categoryName
                        && forall k :: 0 <= k < |s.rules| ==> s.rules[k].id != r.store.rules[|s.rules|].id
    ensures r.store == s.(rules := r.store.rules, nextRuleId := r.store.nextRuleId)
  {
    if exists k :: 0 <= k < |s.rules| && s.rules[k].keyword == keyword then
      Inserted(s, false)
    else
      var rule := Rule(s.nextRuleId, keyword, categoryName);
      var rules := s.rules + [rule];
      assert forall a :: a in rules ==> a in s.rules || a == rule;
      assert forall a :: a in s.rules ==> exists k :: 0 <= k < |s.rules| && s.rules[k] == a;
      assert Seqs.Distinct(rules) by {
        forall i, j | 0 <= i < j < |rules| ensures rules[i] != rules[j] {
          if j == |s.rules| {
            assert rules[i] in s.rules;
          }
        }
      }
      Inserted(s.(rules := rules, nextRuleId := s.nextRuleId + 1), true)
  }

  /** Keeps the rules whose id is not `id`: the complement of `delete_rule`'s
      `WHERE id = ?`. */
  function OtherThan(id: nat): Rule -> bool {
    (a: Rule) => a.id != id
  }

  /** `delete_rule(id)`: the rule with that id disappears and the others stay,
      in their order; an unknown id changes nothing. */
  function DeleteRule(s: Store, id: nat): (r: Store)
    requires Valid(s)
    ensures Valid(r)
    ensures r.rules == Seqs.Filter(s.rules, OtherThan(id))
    ensures forall a :: a in r.rules <==> a in s.rules && a.id != id
    ensures (forall k :: 0 <= k < |s.rules| ==> s.rules[k].id != id) ==> r == s
    ensures r == s.(rules := r.rules)
  {
    var rules := Seqs.Filter(s.rules, OtherThan(id));
    Seqs.FilterDistinct(s.rules, OtherThan(id));
    if forall k :: 0 <= k < |s.rules| ==> s.rules[k].id != id then
      KeepAll(s.rules, OtherThan(id));
      s
    else
      s.(rules := rules)
  }

  lemma {:induction false} KeepAll(rules: seq<Rule>, p: Rule -> bool)
    requires forall k :: 0 <= k < |rules| ==> p(rules[k])
    ensures Seqs.Filter(rules, p) == rules
    decreases |rules|
  {
    if |rules| > 0 {
      KeepAll(rules[1..], p);
      assert rules == [rules[0]] + rules[1..];
    }
  }

  // ---------------------------------------------------------------------------
  // init_db

  /** `init_db()`: the tables already exist in the model, so the only effect is
      seeding the default categories into an empty categories table. */
  function InitDb(s: Store): (r: Store)
    ensures s.categories == {} ==> Uncategorized in r.categories
    ensures s.categories == {} ==> forall c :: c in r.categories <==> c in DefaultCategoryNames
    ensures s.categories != {} ==> r == s
    ensures r == s.(categories := r.categories)
  {
    if s.categories == {} then
      s.(categories := set c | c in DefaultCategoryNames)
    else
      s
  }

  /** Running `init_db` again changes nothing. */
  lemma InitDbTwice(s: Store)
    ensures InitDb(InitDb(s)) == InitDb(s)
  {
    if s.categories == {} {
      assert Uncategorized in InitDb(s).categories;
    }
  }

  /** A fresh database, before and after `init_db`, is a valid store. */
  lemma EmptyStoreValid()
    ensures Valid(EmptyStore) && Valid(InitDb(EmptyStore))
  {
  }
}

=== FILE: optional.dfy ===
/** A value that may be missing, as Python's `None` marks one. */
module Optional {

  datatype Option<T> = None | Some(value: T) {

    /** `x if x is not None else fallback`. */
    function OrElse(fallback: T): (r: T)
      ensures Some? ==> r == value
      ensures None? ==> r == fallback
    {
      if Some? then value else fallback
    }
  }
}

=== FILE: seqs.dfy ===
/** Sequence helpers shared by the store and the ingestion model. */
module Seqs {

  /** The elements of `s` that satisfy `p`, in their original order
      (a Python list comprehension with an `if`). */
  function Filter<T>(s: seq<T>, p: T -> bool): (r: seq<T>)
    ensures |r| <= |s|
    ensures forall i :: 0 <= i < |r| ==> r[i] in s && p(r[i])
    ensures forall i :: 0 <= i < |s| && p(s[i]) ==> s[i] in r
    decreases |s|
  {
    if |s| == 0 then []
    else (if p(s[0]) then [s[0]] else []) + Filter(s[1..], p)
  }

  /** `x` occurs in `s` at an earlier position than `y`. */
  ghost predicate Before<T>(s: seq<T>, x: T, y: T) {
    exists a, b :: 0 <= a < b < |s| && s[a] == x && s[b] == y
  }

  lemma BeforeTail<T>(s: seq<T>, x: T, y: T)
    requires |s| > 0 && Before(s[1..], x, y)
    ensures Before(s, x, y)
  {
    var a, b :| 0 <= a < b < |s[1..]| && s[1..][a] == x && s[1..][b] == y;
    assert s[a + 1] == x && s[b + 1] == y;
  }

  lemma BeforeHead<T>(s: seq<T>, y: T)
    requires |s| > 0 && y in s[1..]
    ensures Before(s, s[0], y)
  {
    var b :| 0 <= b < |s[1..]| && s[1..][b] == y;
    assert s[b + 1] == y;
  }

  /** `Filter` keeps order: two kept elements appear in `s` in the same order. */
  lemma {:induction false} FilterPairOrder<T>(s: seq<T>, p: T -> bool, i: nat, j: nat)
    requires i < j < |Filter(s, p)|
    ensures Before(s, Filter(s, p)[i], Filter(s, p)[j])
    decreases |s|
  {
    var r, rest := Filter(s, p), Filter(s[1..], p);
    var x, y := r[i], r[j];
    if !p(s[0]) {
      assert r == rest;
      FilterPairOrder(s[1..], p, i, j);
      assert x == rest[i] && y == rest[j];
      BeforeTail(s, x, y);
    } else {
      assert r == [s[0]] + rest;
      assert y == rest[j - 1];
      if i == 0 {
        assert x == s[0];
        BeforeHead(s, y);
      } else {
        FilterPairOrder(s[1..], p, i - 1, j - 1);
        assert x == rest[i - 1];
        BeforeTail(s, x, y);
      }
    }
  }

  lemma FilterOrder<T>(s: seq<T>, p: T -> bool)
    ensures forall i, j :: 0 <= i < j < |Filter(s, p)| ==> Before(s, Filter(s, p)[i], Filter(s, p)[j])
  {
    forall i, j | 0 <= i < j < |Filter(s, p)|
      ensures Before(s, Filter(s, p)[i], Filter(s, p)[j])
    {
      FilterPairOrder(s, p, i, j);
    }
  }

  /** `s[k]` is the first element of `s` that satisfies `m`. */
  predicate FirstWhere<T>(s: seq<T>, m: T -> bool, k: int) {
    0 <= k < |s| && m(s[k]) && forall j :: 0 <= j < k ==> !m(s[j])
  }

  lemma FirstWhereTail<T>(s: seq<T>, m: T -> bool, k: int)
    requires FirstWhere(s, m, k) && k > 0
    ensures FirstWhere(s[1..], m, k - 1)
  {
    assert forall j :: 0 <= j < k ==> s[1..][j] == s[j + 1];
  }

  lemma FirstWhereCons<T>(x: T, t: seq<T>, m: T -> bool, k: int)
    requires !m(x) && FirstWhere(t, m, k)
    ensures FirstWhere([x] + t, m, k + 1)
  {
    assert forall j :: 1 <= j <= k + 1 ==> ([x] + t)[j] == t[j - 1];
  }

  /** Filtering keeps the first element satisfying `m` first, as long as it is itself kept. */
  lemma {:induction false} FilterKeepsFirst<T>(s: seq<T>, p: T -> bool, m: T -> bool, k: int) returns (k': int)
    requires FirstWhere(s, m, k) && p(s[k])
    ensures FirstWhere(Filter(s, p), m, k') && Filter(s, p)[k'] == s[k]
    decreases |s|
  {
    var rest := Filter(s[1..], p);
    if k == 0 {
      assert Filter(s, p) == [s[0]] + rest;
      k' := 0;
    } else {
      FirstWhereTail(s, m, k);
      var k1 := FilterKeepsFirst(s[1..], p, m, k - 1);
      assert s[1..][k - 1] == s[k];
      if p(s[0]) {
        assert Filter(s, p) == [s[0]] + rest;
        FirstWhereCons(s[0], rest, m, k1);
        k' := k1 + 1;
      } else {
        assert Filter(s, p) == rest;
        k' := k1;
      }
    }
  }

  /** No element occurs twice. */
  predicate Distinct<T(==)>(s: seq<T>) {
    forall i, j :: 0 <= i < j < |s| ==> s[i] != s[j]
  }

  lemma FilterDistinct<T>(s: seq<T>, p: T -> bool)
    requires Distinct(s)
    ensures Distinct(Filter(s, p))
    decreases |s|
  {
    if |s| > 0 {
      FilterDistinct(s[1..], p);
    }
  }

  /** In a sequence without repetitions every element occurs exactly once. */
  lemma {:induction false} DistinctMultiplicity<T>(s: seq<T>, x: T)
    requires Distinct(s)
    ensures multiset(s)[x] == if x in s then 1 else 0
    decreases |s|
  {
    if |s| > 0 {
      assert s == [s[0]] + s[1..];
      assert Distinct(s[1..]) by {
        forall i, j | 0 <= i < j < |s[1..]| ensures s[1..][i] != s[1..][j] {
          assert s[1..][i] == s[i + 1] && s[1..][j] == s[j + 1];
        }
      }
      DistinctMultiplicity(s[1..], x);
      assert multiset(s) == multiset([s[0]]) + multiset(s[1..]);
      if x == s[0] {
        assert x !in s[1..] by {
          forall k | 0 <= k < |s[1..]| ensures s[1..][k] != x {
            assert s[1..][k] == s[k + 1];
          }
        }
      }
    }
  }

  /** Two repetition-free sequences with the same elements are permutations of each other. */
  lemma DistinctSameElementsPermutation<T>(a: seq<T>, b: seq<T>)
    requires Distinct(a) && Distinct(b)
    requires forall x :: x in a <==> x in b
    ensures multiset(a) == multiset(b)
  {
    forall x ensures multiset(a)[x] == multiset(b)[x] {
      DistinctMultiplicity(a, x);
      DistinctMultiplicity(b, x);
    }
  }
}

=== FILE: strings.dfy ===
/** The handful of Python `str` operations the core relies on: `strip()`,
    `lower()`, `startswith`, the `in` substring test and `replace(old, "")`. */
module Strings {

  /** Python's `str.isspace` for one code point (the characters `strip()` removes). */
  predicate IsSpace(c: char) {
    var n := c as int;
    || 0x09 <= n <= 0x0D
    || 0x1C <= n <= 0x20
    || n == 0x85 || n == 0xA0 || n == 0x1680
    || 0x2000 <= n <= 0x200A
    || n == 0x2028 || n == 0x2029 || n == 0x202F || n == 0x205F || n == 0x3000
  }

  /** `s.lstrip()`: the suffix left after removing leading whitespace. */
  function TrimStart(s: string): (r: string)
    ensures |r| <= |s| && r == s[|s| - |r|..]
    ensures forall k :: 0 <= k < |s| - |r| ==> IsSpace(s[k])
    ensures |r| > 0 ==> !IsSpace(r[0])
    decreases |s|
  {
    if |s| > 0 && IsSpace(s[0]) then TrimStart(s[1..]) else s
  }

  /** `s.rstrip()`: the prefix left after removing trailing whitespace. */
  function TrimEnd(s: string): (r: string)
    ensures |r| <= |s| && r == s[..|r|]
    ensures forall k :: |r| <= k < |s| ==> IsSpace(s[k])
    ensures |r| > 0 ==> !IsSpace(r[|r| - 1])
    decreases |s|
  {
    if |s| > 0 && IsSpace(s[|s| - 1]) then TrimEnd(s[..|s| - 1]) else s
  }

  /** `r` is `s[i..i + |r|]` and everything of `s` around that window is whitespace. */
  predicate StrippedWindow(s: string, r: string, i: int) {
    && 0 <= i <= |s| - |r|
    && r == s[i..i + |r|]
    && (forall k :: 0 <= k < i ==> IsSpace(s[k]))
    && (forall k :: i + |r| <= k < |s| ==> IsSpace(s[k]))
  }

  /** `s.strip()`: the middle of `s` with whitespace removed from both ends. */
  function Strip(s: string): (r: string)
    ensures exists i :: StrippedWindow(s, r, i)
    ensures |r| > 0 ==> !IsSpace(r[0]) && !IsSpace(r[|r| - 1])
  {
    var t := TrimStart(s);
    var r := TrimEnd(t);
    var i := |s| - |t|;
    assert r == s[i..i + |r|];
    assert |r| > 0 ==> r[0] == t[0];
    assert StrippedWindow(s, r, i);
    r
  }

  /** Stripping twice is stripping once. */
  lemma StripIdempotent(s: string)
    ensures Strip(Strip(s)) == Strip(s)
  {
    var r := Strip(s);
    assert TrimStart(r) == r;
    assert TrimEnd(r) == r;
  }

  /** `str.lower()` restricted to ASCII letters. */
  function LowerChar(c: char): char {
    if 'A' <= c <= 'Z' then (c as int + 32) as char else c
  }

  function Lower(s: string): (r: string)
    ensures |r| == |s|
    ensures forall k :: 0 <= k < |s| ==> r[k] == LowerChar(s[k])
    ensures forall k :: 0 <= k < |r| ==> !('A' <= r[k] <= 'Z')
    ensures forall k :: 0 <= k < |r| && !('A' <= s[k] <= 'Z') ==> r[k] == s[k]
  {
    seq(|s|, k requires 0 <= k < |s| => LowerChar(s[k]))
  }

  /** `text.startswith(prefix)`. */
  predicate StartsWith(text: string, prefix: string) {
    |prefix| <= |text| && text[..|prefix|] == prefix
  }

  /** `pat` occurs in `text` starting at index `i`. */
  predicate OccursAt(pat: string, text: string, i: int) {
    0 <= i <= |text| - |pat| && text[i..i + |pat|] == pat
  }

  lemma SliceShift(text: string, i: int, n: int)
    requires 1 <= i && 0 <= n && i + n <= |text|
    ensures text[i..i + n] == text[1..][i - 1..i - 1 + n]
  {
    var a, b := text[i..i + n], text[1..][i - 1..i - 1 + n];
    assert forall k :: 0 <= k < n ==> a[k] == b[k];
  }

  /** Python's `pat in text`, computed by trying every start position in turn;
      it holds exactly when `pat` is a contiguous slice of `text`. */
  function Occurs(pat: string, text: string): (b: bool)
    ensures b <==> exists i :: OccursAt(pat, text, i)
    decreases |text|
  {
    if StartsWith(text, pat) then
      assert OccursAt(pat, text, 0);
      true
    else if |text| == 0 then
      false
    else
      var b := Occurs(pat, text[1..]);
      if b then
        var i :| OccursAt(pat, text[1..], i);
        SliceShift(text, i + 1, |pat|);
        assert OccursAt(pat, text, i + 1);
        true
      else
        assert forall i :: OccursAt(pat, text, i) ==> OccursAt(pat, text[1..], i - 1) by {
          forall i | OccursAt(pat, text, i) ensures OccursAt(pat, text[1..], i - 1) {
            assert i != 0;
            SliceShift(text, i, |pat|);
          }
        }
        false
  }

  /** `s.replace(pat, "")`: every non-overlapping occurrence of `pat`, found
      scanning left to right, is deleted; `RemoveAllJoin` and `RemoveAllPieces`
      pin the result down. */
  function RemoveAll(s: string, pat: string): (r: string)
    requires |pat| > 0
    ensures |r| <= |s|
    decreases |s|
  {
    if |s| == 0 then s
    else if StartsWith(s, pat) then RemoveAll(s[|pat|..], pat)
    else [s[0]] + RemoveAll(s[1..], pat)
  }

  /** Text without an occurrence of `pat` comes back unchanged. */
  lemma {:induction false} RemoveAllAbsent(s: string, pat: string)
    requires |pat| > 0
    requires !Occurs(pat, s)
    ensures RemoveAll(s, pat) == s
    decreases |s|
  {
    if |s| > 0 {
      RemoveAllAbsent(s[1..], pat);
    }
  }

  /** `sep.join(pieces)`. */
  function Join(pieces: seq<string>, sep: string): string
    requires |pieces| > 0
    decreases |pieces|
  {
    if |pieces| == 1 then pieces[0] else pieces[0] + sep + Join(pieces[1..], sep)
  }

  /** `"".join(pieces)`. */
  function Concat(pieces: seq<string>): string
    decreases |pieces|
  {
    if |pieces| == 0 then "" else pieces[0] + Concat(pieces[1..])
  }

  /** Joining `pieces` with `pat` puts each separator at the leftmost occurrence
      of `pat` still ahead: no piece before a separator, read on into the
      separator, holds an earlier occurrence, and the last piece holds none. */
  predicate LeftmostCuts(pieces: seq<string>, pat: string)
    requires |pat| > 0
  {
    && |pieces| > 0
    && (forall k :: 0 <= k < |pieces| - 1 ==> !Occurs(pat, pieces[k] + pat[..|pat| - 1]))
    && !Occurs(pat, pieces[|pieces| - 1])
  }

  /** `replace` deletes the leftmost occurrence and carries on after it: when `a`,
      read on into `pat`, holds no occurrence of its own, `a` is kept and the
      `pat` after it is the one deleted. */
  lemma {:induction false} RemoveAllCut(a: string, b: string, pat: string)
    requires |pat| > 0
    requires !Occurs(pat, a + pat[..|pat| - 1])
    ensures RemoveAll(a + pat + b, pat) == a + RemoveAll(b, pat)
    decreases |a|
  {
    var s, t := a + pat + b, a + pat[..|pat| - 1];
    if |a| == 0 {
      assert s == pat + b && s[|pat|..] == b;
      assert StartsWith(s, pat);
    } else {
      assert t[..|pat|] == s[..|pat|];
      assert StartsWith(s, pat) ==> OccursAt(pat, t, 0);
      assert !StartsWith(s, pat);
      assert t[1..] == a[1..] + pat[..|pat| - 1];
      assert s[1..] == a[1..] + pat + b;
      RemoveAllCut(a[1..], b, pat);
      assert a == [a[0]] + a[1..];
    }
  }

  /** Removing `pat` from pieces joined at leftmost cuts gives the pieces back, run together. */
  lemma {:induction false} RemoveAllJoin(pieces: seq<string>, pat: string)
    requires |pat| > 0
    requires LeftmostCuts(pieces, pat)
    ensures RemoveAll(Join(pieces, pat), pat) == Concat(pieces)
    decreases |pieces|
  {
    if |pieces| == 1 {
      RemoveAllAbsent(pieces[0], pat);
      assert Concat(pieces) == pieces[0] + Concat([]);
    } else {
      var rest := pieces[1..];
      assert LeftmostCuts(rest, pat) by {
        forall k | 0 <= k < |rest| - 1 ensures !Occurs(pat, rest[k] + pat[..|pat| - 1]) {
          assert rest[k] == pieces[k + 1];
        }
        assert rest[|rest| - 1] == pieces[|pieces| - 1];
      }
      RemoveAllJoin(rest, pat);
      assert !Occurs(pat, pieces[0] + pat[..|pat| - 1]);
      RemoveAllCut(pieces[0], Join(rest, pat), pat);
    }
  }

  /** Every text splits at the occurrences `replace` deletes: it is the join of
      leftmost-cut pieces, and the result of `replace` is those pieces run together. */
  lemma {:induction false} RemoveAllPieces(s: string, pat: string) returns (pieces: seq<string>)
    requires |pat| > 0
    ensures LeftmostCuts(pieces, pat)
    ensures Join(pieces, pat) == s
    ensures RemoveAll(s, pat) == Concat(pieces)
    decreases |s|
  {
    if !Occurs(pat, s) {
      pieces := [s];
    } else if StartsWith(s, pat) {
      var rest := RemoveAllPieces(s[|pat|..], pat);
      pieces := CutAtStart(s, pat, rest);
    } else {
      var rest := RemoveAllPieces(s[1..], pat);
      pieces := ExtendFirstPiece(s, pat, rest);
    }
    RemoveAllJoin(pieces, pat);
  }

  /** A text starting with `pat` opens with an empty piece. */
  lemma CutAtStart(s: string, pat: string, rest: seq<string>) returns (pieces: seq<string>)
    requires |pat| > 0 && StartsWith(s, pat)
    requires LeftmostCuts(rest, pat) && Join(rest, pat) == s[|pat|..]
    ensures pieces == [""] + rest
    ensures LeftmostCuts(pieces, pat) && Join(pieces, pat) == s
  {
    pieces := [""] + rest;
    assert pieces[1..] == rest;
    assert !Occurs(pat, "" + pat[..|pat| - 1]);
    assert s == pat + s[|pat|..];
    forall k | 1 <= k < |pieces| - 1 ensures !Occurs(pat, pieces[k] + pat[..|pat| - 1]) {
      assert pieces[k] == rest[k - 1];
    }
  }

  /** A text that holds `pat` but does not start with it keeps its first
      character in its first piece. */
  lemma ExtendFirstPiece(s: string, pat: string, rest: seq<string>) returns (pieces: seq<string>)
    requires |pat| > 0 && |s| > 0 && !StartsWith(s, pat) && Occurs(pat, s)
    requires LeftmostCuts(rest, pat) && Join(rest, pat) == s[1..]
    ensures pieces == [[s[0]] + rest[0]] + rest[1..]
    ensures LeftmostCuts(pieces, pat) && Join(pieces, pat) == s
  {
    TailHoldsCut(s, pat, rest);
    var head := [s[0]] + rest[0];
    pieces := [head] + rest[1..];
    var later := JoinNewHead(s, rest, head, pat);
    FirstPieceCut(s, pat, head, rest[0], later);
    CutsWithNewHead(rest, head, pat);
  }

  /** The rest of a text that holds `pat` without starting with it holds an occurrence, so it has a cut. */
  lemma TailHoldsCut(s: string, pat: string, rest: seq<string>)
    requires |pat| > 0 && |s| > 0 && !StartsWith(s, pat) && Occurs(pat, s)
    requires LeftmostCuts(rest, pat) && Join(rest, pat) == s[1..]
    ensures |rest| > 1
  {
    assert Occurs(pat, s[1..]);
  }

  /** Putting the first character in front of the first piece puts it in front of the join. */
  lemma JoinNewHead(s: string, rest: seq<string>, head: string, pat: string) returns (later: string)
    requires |s| > 0 && |rest| > 1 && Join(rest, pat) == s[1..] && head == [s[0]] + rest[0]
    ensures later == Join(rest[1..], pat)
    ensures s == head + pat + later
    ensures Join([head] + rest[1..], pat) == s
  {
    later := Join(rest[1..], pat);
    assert Join(rest, pat) == rest[0] + pat + later;
    assert s == [s[0]] + s[1..];
    assert ([head] + rest[1..])[1..] == rest[1..];
  }

  lemma FirstPieceCut(s: string, pat: string, head: string, tail: string, later: string)
    requires |pat| > 0 && |s| > 0 && !StartsWith(s, pat)
    requires head == [s[0]] + tail && s == head + pat + later
    requires !Occurs(pat, tail + pat[..|pat| - 1])
    ensures !Occurs(pat, head + pat[..|pat| - 1])
  {
    var t := head + pat[..|pat| - 1];
    assert |pat| <= |t| <= |s|;
    assert s[..|t|] == t;
    assert t[..|pat|] == s[..|t|][..|pat|] == s[..|pat|];
    assert !StartsWith(t, pat);
    assert t[1..] == tail + pat[..|pat| - 1];
  }

  /** Replacing the first piece by one that, read on into `pat`, holds no
      occurrence keeps the cuts leftmost. */
  lemma CutsWithNewHead(rest: seq<string>, head: string, pat: string)
    requires |pat| > 0 && |rest| > 1 && LeftmostCuts(rest, pat)
    requires !Occurs(pat, head + pat[..|pat| - 1])
    ensures LeftmostCuts([head] + rest[1..], pat)
  {
    var pieces := [head] + rest[1..];
    assert forall k :: 1 <= k < |pieces| ==> pieces[k] == rest[k];
  }

  /** A prefix that cannot begin an occurrence of `pat` passes through `RemoveAll` untouched. */
  lemma {:induction false} RemoveAllSkipsPrefix(a: string, b: string, pat: string)
    requires |pat| > 0
    requires forall k :: 0 <= k < |a| ==> a[k] != pat[0]
    ensures RemoveAll(a + b, pat) == a + RemoveAll(b, pat)
    decreases |a|
  {
    if |a| > 0 {
      assert (a + b)[0] == a[0];
      assert !StartsWith(a + b, pat);
      assert (a + b)[1..] == a[1..] + b;
      RemoveAllSkipsPrefix(a[1..], b, pat);
    } else {
      assert a + b == b;
    }
  }
}
